=== FILE: README.md ===
# Wedding invitation page: deadline, guest list, session and countdown logic

The page script of a wedding invitation (script.js) lets a guest sign in by name. It
looks the name up in a spreadsheet-backed registry and caches the answer in the
browser's `localStorage`. It then shows the invitation:

- a passes panel with the number of passes and the names the invitation covers;
- an RSVP form that closes once the guest's confirmation deadline (`fechaLimite`) has
  passed;
- a countdown to the ceremony;
- a guest-message form.

test_date.js holds a second version of the deadline parser. That version treats the
deadline day as inclusive.

This project models the decision logic of those pieces as pure functions over
immutable values, and proves what they promise.

| file | module | what it models |
|---|---|---|
| `wrappers.dfy` | `Wrappers` | `Option` |
| `strings.dfy` | `Strings` | `split` on a character or a character class, `trim` with ECMAScript's white-space set, `join`, and the decimal form of an integer |
| `values.dfy` | `Values` | values from `JSON.parse`: truthiness, property reads and `String(v)` |
| `dates.dfy` | `Dates` | `Date` as a time value or NaN: ECMA-262 MakeDay, MakeTime and TimeClip, the seven-argument constructor, and `setHours(23, 59, 59, 999)` |
| `fecha.dfy` | `Fecha` | `parseFecha` of script.js and the RSVP deadline gate |
| `fecha_end_of_day.dfy` | `FechaEndOfDay` | `parseFecha` of test_date.js, and how it compares with the script.js version |
| `guests.dfy` | `Guests` | the `Invitados` list and the passes panel |
| `session.dfy` | `Session` | `validateUser`, `showMainContent`, restoring the cached session on load, and the background refresh |
| `submit.dfy` | `Submit` | the two form handlers and `sendToSheet`: the payload merge and the RSVP branch |
| `countdown.dfy` | `Countdown` | the arithmetic of `startCountdown` and its stopping rule |

Inputs stand in for everything foreign to the logic:

- A `Date` is its time value. The local time zone is taken as UTC, and `now` is a
  parameter.
- `Host` carries the two engine built-ins the model does not define: `Number(s)` on a
  string, and `new Date(v)` on a non-Date value.
- A lookup is a `Reply`. It is either aborted by the 10-second timer, rejected by
  `fetch` with a message, or answered with a status and a body that does or does not
  parse as JSON.
- The login lookup is a function from the name sent to its reply.
- The cache is an `Option<Record>`.

Four behaviours of the code worth knowing, all modelled as written:

- The background refresh never looks at the response status. It accepts any body that
  parses to an object with a truthy `success`, even with an error status. The sign-in
  path rejects such a reply (`Session.RefreshIgnoresStatus`).
- A `fetch` failure other than "Failed to fetch" is not reported as a connection
  problem. It is reported as `Error: ` followed by the engine's message.
- A JSON `null` body raises a TypeError, and so does a truthy non-string `Invitados`
  when `Pases` is present. On the sign-in path they show up as an `Error: …` line.
- A restored session whose panel throws stops the script that runs on page load.

## Model

| member | source | states |
|---|---|---|
| Strings.Split | script.js:16 | there is always at least one piece, and no piece contains a separator |
| Strings.SplitCount | script.js:16-17 | the number of pieces is one more than the number of separators in the string |
| Strings.SplitNone | script.js:16 | a string with no separator splits into itself alone |
| Strings.SplitAround | script.js:148 | splitting at a separator gives the pieces of each side, in order |
| Strings.JoinSplit | script.js:16 | joining the pieces back with the separator restores the original string |
| Strings.SplitJoin | script.js:16 | splitting a join of separator-free pieces returns those pieces |
| Strings.Trim | script.js:43-44 | the result has no white space at either end; it is empty exactly when the input is all white space; an already-trimmed string is unchanged |
| Strings.TrimShape | script.js:43 | what `trim` keeps is the part of the input between a blank prefix and a blank suffix |
| Strings.TrimInfix | script.js:43 | what `trim` keeps starts right after the leading white space |
| Strings.TrimTail | script.js:43 | everything after what `trim` keeps is white space |
| Strings.TrimAvoids | script.js:148 | trimming introduces no separator |
| Strings.TrimBlankPrefix | script.js:148 | leading white space has no effect on the trimmed result |
| Strings.NatText | script.js:145 | the decimal form is non-empty, all digits, and reads back as the number |
| Strings.IntText | script.js:69 | the decimal form of an integer contains neither `/` nor `,` |
| Values.Props | script.js:81 | property access throws exactly on `null` or `undefined`; an object exposes its own fields; a number, string, boolean or array has none of the properties the page reads |
| Values.ScalarTextHasNoSlash | script.js:16 | `String(v)` of a number, boolean, object, `null` or `undefined` has no `/` |
| Dates.Trunc | script.js:18 | ToIntegerOrInfinity on a finite number truncates toward zero |
| Dates.MakeDay | script.js:18 | for a month index 0-11 the day number is that of the first of month index + 1, plus the date less one: month indexes are zero-based |
| Dates.MakeTime | script.js:18 | hours, minutes, seconds and milliseconds in range give a time within one day; 23:59:59.999 is its last millisecond |
| Dates.Construct | script.js:18 | a NaN date part gives an Invalid Date; with all parts present, the result is valid whenever day MakeDay(year, month, day) at the requested time is within ±8.64e15 ms, and a valid result lies on that day at that time of day, with a two-digit year read as 19xx |
| Dates.EndOfDay | test_date.js:7-8 | the result is on the same day at 23:59:59.999 and not earlier; it is valid for every valid input except the last representable day |
| Dates.Later | script.js:113 | comparing with an Invalid Date is never "later" |
| Dates.LaterIsStrict | script.js:113 | `>` on Dates is irreflexive, asymmetric and transitive |
| Dates.EndOfDayIdempotent | test_date.js:6-9 | applying `setHours(23, 59, 59, 999)` a second time changes nothing |
| Dates.MakeDayMonthCarry | script.js:18 | a month index twelve higher is the same month a year later |
| Dates.MonthsHaveTheirLengths | script.js:18 | consecutive month starts are as far apart as the month's length, with 29 days for February in leap years |
| Dates.FebruaryLength | script.js:18 | February has 29 days in Gregorian leap years and 28 otherwise |
| Dates.EpochDay | script.js:18 | day 0 is 1 January 1970 |
| Dates.DayOf25February2026 | test_date.js:1 | 25 February 2026 is day 20509 |
| Dates.DayOf20April2026 | script.js:8 | 20 April 2026 is day 20563 |
| Fecha.ParseFecha | script.js:11-21 | the result is null exactly for falsy input; a Date passes through unchanged; a valid `D/M/Y` result is at midnight |
| Fecha.RsvpClosed | script.js:108-113 | a falsy `fechaLimite` or an Invalid current time never closes the form; closing needs a valid parsed deadline |
| Fecha.ParseDayMonthYear | script.js:16-19 | a string with two slashes is read as year = third part, month index = second part − 1, day = first part, at 00:00:00.000 |
| Fecha.SlashPartsOfDate | script.js:16 | `dd/mm/yy` splits into `dd`, `mm` and `yy` |
| Fecha.ParseOtherString | script.js:20 | a non-empty string without exactly two slashes goes to `new Date(str)` |
| Fecha.ParseNonString | script.js:16-20 | a truthy number, boolean or object goes to `new Date(value)` |
| Fecha.ParseSample | script.js:11-21 | "20/04/2026" is midnight at the start of 20 April 2026 |
| Fecha.GateOpenAtDeadline | script.js:113 | an instant equal to the deadline leaves the form open |
| Fecha.GateOpenOnInvalid | script.js:113 | an Invalid Date deadline never closes the form |
| Fecha.GateStaysClosed | script.js:108-113 | once the gate is closed, it stays closed at every later instant |
| Fecha.DayMonthYearGate | script.js:108-113 | for a numeric `D/M/Y` deadline, the form is closed exactly when now is later than midnight starting that day |
| FechaEndOfDay.ParseFechaEndOfDay | test_date.js:4-23 | falsy input gives null; a Date gives the end of its own day; every valid result is at 23:59:59.999 |
| FechaEndOfDay.DayMonthYearAtEndOfDay | test_date.js:12-14 | `dd/mm/yy` gives `new Date(yy, mm - 1, dd, 23, 59, 59, 999)` |
| FechaEndOfDay.NullExactly | test_date.js:4-23 | the result is null exactly for falsy input, or for a non-`D/M/Y` value the engine cannot parse |
| FechaEndOfDay.UnreadablePartsGiveInvalid | test_date.js:12-14 | `D/M/Y` parts that are not numbers give an Invalid Date, not null |
| FechaEndOfDay.GenericStaysOnItsDay | test_date.js:17-21 | a valid generic parse is moved to the end of its own day, never earlier |
| FechaEndOfDay.ParseIdempotent | test_date.js:6-9 | feeding a result back in returns that result unchanged |
| FechaEndOfDay.ParseSample | test_date.js:12-14 | "25/02/2026" is 25 February 2026 at 23:59:59.999 |
| FechaEndOfDay.SameDayLater | test_date.js:14 | on a `D/M/Y` value both parsers choose the same day, and this one is 23:59:59.999 later than the script.js result |
| FechaEndOfDay.DeadlineDayDiffers | test_date.js:14 | an instant after midnight on the deadline day closes the form under script.js but is not past this parser's deadline |
| Guests.Tidy | script.js:148 | the list never grows, and every name kept is non-empty and has no white space at either end |
| Guests.GuestList | script.js:148 | every listed name is non-empty and has no white space at either end |
| Guests.GuestListCount | script.js:148 | there are never more names than separators plus one |
| Guests.TidyClean | script.js:148 | trimming and dropping empty pieces leaves only clean names |
| Guests.GuestListClean | script.js:148 | every listed name is non-empty, has no comma or line break, and has no white space at either end |
| Guests.TidyAppend | script.js:148 | trimming and filtering commute with concatenation |
| Guests.GuestListAround | script.js:148 | names before a separator come before the names after it |
| Guests.GuestListSingle | script.js:148 | a delimiter-free input gives nothing if it is blank, and otherwise its trimmed self alone |
| Guests.GuestListBlankPrefix | script.js:148 | leading spaces before the first name change nothing |
| Guests.GuestListRoundTrip | script.js:148 | listing clean names joined by a comma or line break plus spaces returns the names, in the same order |
| Guests.GuestListSample | script.js:148 | "Maria Lopez, Juan Lopez" lists Maria Lopez, then Juan Lopez |
| Guests.ShowPasses | script.js:143-157 | the panel shows exactly when `Pases` is neither undefined nor null, captioned `(Pases)`; a string `Invitados` is listed and a falsy one clears the list; any other truthy value throws with the caption already shown and the old names kept; a hidden panel keeps its contents |
| Guests.ShowCaptioned | script.js:146-151 | once the caption is shown, a string `Invitados` is listed, a falsy value leaves no names, and any other truthy value breaks the update with the old names kept |
| Guests.ShowPassesSample | script.js:143-150 | two passes for Maria and Juan Lopez show "(2)" and both names |
| Session.Render | script.js:103-157 | the gate is hidden; the form is closed if it already was or the deadline has passed; the passes panel is the one `ShowPasses` gives for the record; the cache, error line and controls are untouched; it throws exactly when the panel update throws |
| Session.Classify | script.js:59-95 | a reply is admitted exactly when it is a 2xx response with an object body whose `success` is truthy; abort, "Failed to fetch", other fetch errors, a bad status and a non-JSON body each get their own message; an admitted record is the object body's own fields; an object body without a truthy `success` gives its `message` if truthy, else the fixed not-found text; a `null` body crashes |
| Session.SignIn | script.js:47-100 | the controls end enabled; the cache becomes the admitted record, or stays as it was; an admitted record hides the gate, closes the form if it already was or its deadline has passed, and fills the passes panel from the record; a rejection or a crash changes nothing but the error line, which shows its message or its error, and the controls |
| Session.ValidateUser | script.js:42-101 | a blank name changes nothing; otherwise the controls end enabled; the cache changes only on admission and is then replaced by the record as a whole, the gate is hidden, the deadline gate runs and the panel shows the record; a failed lookup changes nothing but the error line and the controls; a closed form stays closed |
| Session.Restore | script.js:165-172 | the error line is clear and the controls enabled; a cached session is shown without any lookup, with the form closed exactly when its deadline has passed and the panel filled from the record; no cache leaves the gate up; the load script runs to its end exactly when the panel update does not throw; a refresh starts exactly when the session has no truthy `fechaLimite` and the script ran to its end |
| Session.Refresh | script.js:171-181 | whatever the status, a parsed body that grants access replaces the cache with its record and shows it (gate hidden, deadline gate run, panel filled from the record); every other reply leaves the whole page as it was; the error line and the controls are untouched; a closed form stays closed |
| Session.TypedNameIsTrimmed | script.js:43-63 | white space around the typed name changes nothing: the trimmed name is what gets looked up |
| Session.LoginKeepsCacheValid | script.js:81-83 | signing in keeps the invariant that the cache is empty or holds a record with a truthy `success` |
| Session.RefreshKeepsCacheValid | script.js:176-178 | the background refresh keeps the same invariant |
| Session.FailedLoginKeepsCache | script.js:84-95 | a rejected or crashed lookup leaves the cache and the gate as they were, and puts up a notice |
| Session.AdmittedLoginNotice | script.js:50-86 | an admitted lookup leaves the error line empty, unless the panel throws |
| Session.RefreshIgnoresStatus | script.js:173-178 | a granting body with an error status is rejected by sign-in with the status message, yet accepted by the refresh |
| Session.ReloadAfterLogin | script.js:165-168 | after a sign-in that did not throw, a reload shows the cached invitation: same panel, gate hidden, and the form closed if its deadline had already passed |
| Session.OldSessionRefreshes | script.js:171-173 | a cached session without `fechaLimite` is always refreshed |
| Session.BrokenPanelHaltsLoad | script.js:147-149 | a restored session with a truthy non-string `Invitados` stops the load script, so no refresh starts |
| Submit.FormFields | script.js:220-245 | both handlers always supply `usuario`; the RSVP form adds `confirmado` as chosen (`null` when nothing is) and `canciones` as typed (an empty string when missing), and the message form adds `mensaje` as typed (`null` when missing) |
| Submit.Payload | script.js:332-335 | the keys of `data` override the base; `usuario` falls back to the session's value, or to 'Invitado' without a session, only when `data` has no `usuario` |
| Submit.Submit | script.js:220-392 | without a cached session nothing is posted; a failed post answers with the error; a delivered RSVP is confirmed exactly when `confirmado` is 'Si' |
| Submit.Attending | script.js:352 | attending exactly when `confirmado` is present and is the string "Si"; a missing answer is not attending |
| Submit.FallbackOnlyWithoutUsuario | script.js:332-335 | the 'Invitado' fallback survives the merge exactly when `data` has no `usuario` |
| Submit.HandlersNeverUseFallback | script.js:223-226 | with a session, the posted `usuario` is always the session's |
| Submit.PayloadIsTheFormFields | script.js:332-335 | the merge neither adds nor changes anything in the handler's `data` |
| Submit.MissingUsuarioIsNotSent | script.js:344 | a session without `usuario` posts a body without that key |
| Submit.OnlySiConfirms | script.js:352 | any answer other than the exact string "Si", including none, counts as declining |
| Countdown.JsRem | script.js:192-194 | JavaScript's `%` agrees with the mathematical remainder on non-negative values, and keeps the sign of a negative dividend |
| Countdown.JsRemCongruent | script.js:192-194 | on a negative dividend the result differs from it by a multiple of the divisor, which with the bounds of `JsRem` makes it the remainder of division truncated toward zero |
| Countdown.Decompose | script.js:191-194 | for a distance ≥ 0, hours < 24 and minutes, seconds < 60, all non-negative; for a negative distance, every field is ≤ 0 and days < 0 |
| Countdown.Pad2 | script.js:196-199 | every field is shown with at least two characters |
| Countdown.TickAt | script.js:187-205 | the four fields shown are the padded days, hours, minutes and seconds of the clock; before the wedding the clock is short of the remaining time by less than a second, with days not negative, hours below 24 and minutes and seconds below 60; the tick stops the timer exactly when the wedding time has passed |
| Countdown.DecomposeRoundTrip | script.js:191-194 | for a distance ≥ 0, the four fields add back up to the distance cut down to whole seconds |
| Countdown.DecomposeWithinASecond | script.js:191-194 | d − 1000 < days·86400000 + hours·3600000 + minutes·60000 + seconds·1000 ≤ d |
| Countdown.DecomposeMonotone | script.js:189-194 | a smaller distance never shows a larger time |
| Countdown.Pad2ReadsBack | script.js:196-199 | every number of zero or more, a day count of 100 or more included, is shown in digits that read back as the number |
| Countdown.Pad2TwoDigits | script.js:196-199 | a number from 0 to 99 is shown as exactly two digits that read back as the number |
| Countdown.TickDigits | script.js:197-199 | before the wedding, hours, minutes and seconds are always two characters |
| Countdown.TickSample | script.js:191-194 | a distance of 1 d 2 h 3 min 4.005 s shows 1, 2, 3, 4 |
| Countdown.FirstStoppingTick | script.js:189-204 | one millisecond after the wedding time, every field is −1 and the timer stops |

## Left out

- Strings as UTF-16. A Dafny `string` is a sequence of Unicode scalar values, so a JSON string holding a lone surrogate cannot be represented. `trim` and `split` on the separators used here do not depend on this.
- Time zones. The local zone is taken as UTC. `new Date(value)` inside `parseFecha`, for anything but the seven-argument form, is an input (`Host.parseDate`), and so is `Number(s)` (`Host.toNumber`).
- The wedding time. `new Date('April 20, 2026 15:00:00')` (script.js:8) is a parse the language leaves to the engine. `Countdown.WeddingTime` takes it as the usual engines read it, 15:00 on 20 April 2026, in UTC.
- The date model. A `Date` is represented as its time value with NaN as `Invalid`, not as a record of year, month, day and time fields compared field by field. Comparison of time values is what `>` on Dates does, and it makes out-of-range months and days roll over as the constructor does.
- JSON numbers are integers. Fractions, and the exponent form `String` uses from 1e21 upward, are not modelled. The page reads only counts and dates from numbers.
- The DOM. This covers the HTML of the closed-RSVP and thank-you notices, button labels and spinners, and the calendar button's move. These are reduced to the `Page` fields and the `Answer` of a submission.
- The network, `AbortController` and the 10-second timer, and the 1.5 s and 3 s delays. The outcome of each request is an input. Overlapping sign-in attempts are not modelled; the code does not guard against them.
- `localStorage` and the `JSON.stringify`/`JSON.parse` round trip of the cached record. The cache holds the record itself, which the round trip preserves for parsed JSON.
- The mock sign-in branch (script.js:53-56). It cannot run, because the configured URL does not contain the marker it tests for.
- The songs-field toggle (script.js:209-216), the FAQ accordion, clipboard copy, scroll reveal, the calendar link, background music and the Spanish form-validity messages. None of these affects the modelled state.
- The `setInterval` scheduling. Each call of `showMainContent` starts another countdown timer. Only a single tick (`Countdown.TickAt`) is modelled.
- The wording of engine TypeErrors. It is engine-specific, so `Session.EngineError` keeps only which error it was.
- Empty rejection messages. An object `message` whose string form is empty, such as an empty array, leaves an empty error line. No contract claims that a rejection message is non-empty.

=== FILE: countdown.dfy ===
/**
  The countdown of `startCountdown`: once a second the distance to the wedding, in
  milliseconds, is split into days, hours, minutes and seconds, each written out with
  at least two digits; once the distance is negative the timer stops.
 */
module Countdown {
  import opened Strings
  import opened Dates

  /** `new Date('April 20, 2026 15:00:00').getTime()`, local time being UTC. */
  const WeddingTime: int := 20563 * MsPerDay + 15 * MsPerHour

  /**
    JavaScript's `%` on a positive divisor: the remainder keeps the dividend's sign
    (it truncates toward zero), unlike Dafny's `%`, which is never negative.
   */
  function JsRem(a: int, b: int): (r: int)
    requires b > 0
    ensures a >= 0 ==> r == a % b
    ensures a < 0 ==> -b < r <= 0
  {
    if a >= 0 then a % b else -((-a) % b)
  }

  /**
    For a negative dividend the JavaScript remainder differs from the dividend by a
    multiple of the divisor; with the bounds of `JsRem` this makes it the remainder of
    division truncated toward zero.
   */
  lemma JsRemCongruent(a: int, b: int)
    requires b > 0 && a < 0
    ensures (a - JsRem(a, b)) % b == 0
  {
    assert -a == ((-a) / b) * b + (-a) % b;
    DivModUnique(a - JsRem(a, b), b, -((-a) / b), 0);
  }

  /** The four numbers the countdown shows. */
  datatype Clock = Clock(days: int, hours: int, minutes: int, seconds: int)

  /** The instant a clock stands for, in milliseconds. */
  function Span(c: Clock): int {
    c.days * MsPerDay + c.hours * MsPerHour + c.minutes * MsPerMinute + c.seconds * MsPerSecond
  }

  /**
    The four `Math.floor` lines: whole days of the distance, then whole hours, minutes
    and seconds of the JavaScript remainders. `Math.floor` of a quotient by a positive
    divisor is Dafny's `/`.
   */
  function Decompose(distance: int): (c: Clock)
    ensures distance >= 0 ==>
      && 0 <= c.days && 0 <= c.hours < 24 && 0 <= c.minutes < 60 && 0 <= c.seconds < 60
    ensures distance < 0 ==>
      && c.days < 0 && -24 <= c.hours <= 0 && -60 <= c.minutes <= 0 && -60 <= c.seconds <= 0
  {
    Clock(distance / MsPerDay,
          JsRem(distance, MsPerDay) / MsPerHour,
          JsRem(distance, MsPerHour) / MsPerMinute,
          JsRem(distance, MsPerMinute) / MsPerSecond)
  }

  /** `n.toString().padStart(2, '0')`. */
  function Pad2(n: int): (s: string)
    ensures |s| >= 2
  {
    var t := IntText(n);
    if |t| < 2 then "0" + t else t
  }

  /** What one tick of the timer shows, and whether it stops the timer. */
  datatype Tick = Tick(clock: Clock, shown: seq<string>, stops: bool)

  /** One run of the interval callback at time value `now`. */
  function TickAt(now: int): (t: Tick)
    ensures t.shown == [Pad2(t.clock.days), Pad2(t.clock.hours), Pad2(t.clock.minutes), Pad2(t.clock.seconds)]
    ensures now <= WeddingTime ==> WeddingTime - now - MsPerSecond < Span(t.clock) <= WeddingTime - now
    ensures now <= WeddingTime ==>
      && 0 <= t.clock.days && 0 <= t.clock.hours < 24
      && 0 <= t.clock.minutes < 60 && 0 <= t.clock.seconds < 60
    ensures t.stops <==> now > WeddingTime
  {
    var c := Decompose(WeddingTime - now);
    ShownWithinASecond(WeddingTime - now);
    Tick(c, [Pad2(c.days), Pad2(c.hours), Pad2(c.minutes), Pad2(c.seconds)], WeddingTime - now < 0)
  }

  // ---------------------------------------------------------------------------
  // properties

  /**
    For a distance of zero or more, the clock is the distance cut down to whole seconds:
    the four numbers add back up to it less the leftover milliseconds.
   */
  lemma {:induction false} DecomposeRoundTrip(d: int)
    requires d >= 0
    ensures Span(Decompose(d)) == d - d % MsPerSecond
  {
    var c := Decompose(d);
    var rh := (d % MsPerDay) % MsPerHour;
    var rm := rh % MsPerMinute;
    var rs := rm % MsPerSecond;
    assert d == c.days * MsPerDay + c.hours * MsPerHour + rh;
    DivModUnique(d, MsPerHour, c.days * 24 + c.hours, rh);
    assert rh == c.minutes * MsPerMinute + rm;
    DivModUnique(d, MsPerMinute, (c.days * 24 + c.hours) * 60 + c.minutes, rm);
    assert rm == c.seconds * MsPerSecond + rs;
    DivModUnique(d, MsPerSecond, ((c.days * 24 + c.hours) * 60 + c.minutes) * 60 + c.seconds, rs);
  }

  /** Hence `d - 1000 < Span <= d`: the shown time is short of the distance by under a second. */
  lemma DecomposeWithinASecond(d: int)
    requires d >= 0
    ensures d - MsPerSecond < Span(Decompose(d)) <= d
  {
    DecomposeRoundTrip(d);
  }

  /** The same, for any distance: only a distance of zero or more is bounded. */
  lemma ShownWithinASecond(d: int)
    ensures d >= 0 ==> d - MsPerSecond < Span(Decompose(d)) <= d
  {
    if d >= 0 {
      DecomposeWithinASecond(d);
    }
  }

  /** Between two ticks the shown time never goes up. */
  lemma DecomposeMonotone(d: int, e: int)
    requires 0 <= d <= e
    ensures Span(Decompose(d)) <= Span(Decompose(e))
  {
    DecomposeRoundTrip(d);
    DecomposeRoundTrip(e);
    WholeSecondsMonotone(d, e);
  }

  /** Cutting down to whole seconds keeps the order of two distances. */
  lemma WholeSecondsMonotone(d: int, e: int)
    requires 0 <= d <= e
    ensures d - d % MsPerSecond <= e - e % MsPerSecond
  {
    var q, r := d / MsPerSecond, e / MsPerSecond;
    assert q * MsPerSecond <= d <= e < r * MsPerSecond + MsPerSecond;
    assert q <= r;
  }

  /** A number below 100 and not negative is shown as exactly two digits, read back as itself. */
  lemma Pad2TwoDigits(n: int)
    requires 0 <= n < 100
    ensures |Pad2(n)| == 2
    ensures forall k :: 0 <= k < 2 ==> IsDigit(Pad2(n)[k])
    ensures DigitsValue(Pad2(n)) == n
  {
    var t := NatText(n);
    if n < 10 {
      assert |t| == 1;
      var s := "0" + t;
      assert s[..1] == "0";
      assert DigitsValue(s) == DigitsValue(s[..1]) * 10 + DigitsValue(s[1..]) by {
        assert s[..|s| - 1] == "0";
        assert s[|s| - 1..] == t;
      }
    } else {
      assert t == NatText(n / 10) + [DigitChar(n % 10)];
      assert |NatText(n / 10)| == 1;
    }
  }

  /**
    Any number of zero or more, the days included, is shown in decimal digits that read
    back as the number itself.
   */
  lemma Pad2ReadsBack(n: int)
    requires n >= 0
    ensures forall k :: 0 <= k < |Pad2(n)| ==> IsDigit(Pad2(n)[k])
    ensures DigitsValue(Pad2(n)) == n
  {
    if n < 100 {
      Pad2TwoDigits(n);
    } else {
      assert |NatText(n / 10)| >= 1;
    }
  }

  /** The hours, minutes and seconds of a tick before the wedding always show two digits each. */
  lemma TickDigits(now: int)
    requires now <= WeddingTime
    ensures forall i :: 1 <= i < 4 ==> |TickAt(now).shown[i]| == 2
  {
    var c := Decompose(WeddingTime - now);
    Pad2TwoDigits(c.hours);
    Pad2TwoDigits(c.minutes);
    Pad2TwoDigits(c.seconds);
  }

  /** One day, two hours, three minutes, four seconds and five milliseconds out. */
  lemma TickSample()
    ensures Decompose(MsPerDay + 2 * MsPerHour + 3 * MsPerMinute + 4 * MsPerSecond + 5)
         == Clock(1, 2, 3, 4)
  {
  }

  /**
    One millisecond after the wedding time the remainders are negative, so every field
    reads -1; that tick stops the timer and the countdown gives way to its closing line.
   */
  lemma FirstStoppingTick()
    ensures TickAt(WeddingTime + 1).clock == Clock(-1, -1, -1, -1)
    ensures TickAt(WeddingTime + 1).stops
  {
    assert JsRem(-1, MsPerDay) == -1 && JsRem(-1, MsPerHour) == -1 && JsRem(-1, MsPerMinute) == -1;
  }
}

=== FILE: dates.dfy ===
/**
  JavaScript `Date` objects, reduced to what the deadline logic observes. A Date is a
  time value — milliseconds since 1970-01-01T00:00:00 — or NaN (an "Invalid Date").
  The local time zone is taken to be UTC, so local and UTC time values coincide.
  Field-wise construction follows ECMA-262 (MakeDay, MakeTime, MakeDate, TimeClip in
  section 21.4.1 and the `Date` constructor in section 21.4.2.1), so out-of-range
  months and days roll over exactly as they do in JavaScript.
 */
module Dates {
  import opened Wrappers
  import opened Values

  const MsPerSecond: int := 1000
  const MsPerMinute: int := 60000
  const MsPerHour: int := 3600000
  const MsPerDay: int := 86400000

  /** Largest magnitude of a valid time value: 100,000,000 days on either side of the epoch. */
  const MaxTimeValue: int := 8640000000000000

  /** The time of day `setHours(23, 59, 59, 999)` sets: one millisecond before midnight. */
  const LastMsOfDay: int := 86399999

  /** A Date object: a time value, or NaN. */
  datatype DateTime = Invalid | Time(ms: int)

  /**
    The engine built-ins the model does not define: `Number(s)` on a string (`None` for
    NaN and the infinities), and the one-argument constructor `new Date(v)` applied to a
    non-Date value (a string is parsed in an engine-specific way, a number is a time value).
   */
  datatype Host = Host(toNumber: string -> Option<real>, parseDate: Json -> DateTime)

  /** ToIntegerOrInfinity on a finite number: truncation toward zero. */
  function Trunc(x: real): (n: int)
    ensures 0.0 <= x ==> n as real <= x < n as real + 1.0
    ensures x < 0.0 ==> n as real - 1.0 < x <= n as real
  {
    if x >= 0.0 then x.Floor else -((-x).Floor)
  }

  /** Whether `y` is a leap year of the proleptic Gregorian calendar. */
  predicate LeapYear(y: int) {
    y % 4 == 0 && (y % 100 != 0 || y % 400 == 0)
  }

  /** Number of days of month `m` (1 = January) of year `y`. */
  function MonthLength(y: int, m: int): int
    requires 1 <= m <= 12
  {
    if m == 2 then (if LeapYear(y) then 29 else 28)
    else if m == 4 || m == 6 || m == 9 || m == 11 then 30
    else 31
  }

  /**
    Day number (days since 1970-01-01) of day `d` of month `m` (1 = January) of year `y`
    in the proleptic Gregorian calendar, counted from March so that the leap day comes last.
   */
  function CivilDays(y: int, m: int, d: int): int
    requires 1 <= m <= 12
  {
    var yy := if m <= 2 then y - 1 else y;
    var era := yy / 400;
    var yoe := yy - era * 400;
    var mp := if m > 2 then m - 3 else m + 9;
    var doy := (153 * mp + 2) / 5 + d - 1;
    var doe := yoe * 365 + yoe / 4 - yoe / 100 + doy;
    era * 146097 + doe - 719468
  }

  /**
    MakeDay(year, month, date) on integer arguments: the month index (0 = January) may be
    out of range and carries into the year; the date may be out of range and carries into
    the following or preceding months.
   */
  function MakeDay(year: int, month: int, date: int): (n: int)
    ensures 0 <= month < 12 ==> n == CivilDays(year, month + 1, 1) + date - 1
  {
    var ym := year + month / 12;
    var mn := month % 12;
    CivilDays(ym, mn + 1, 1) + date - 1
  }

  /** MakeTime on integer arguments: milliseconds from the start of the day. */
  function MakeTime(hour: int, minute: int, second: int, milli: int): (t: int)
    ensures 0 <= hour < 24 && 0 <= minute < 60 && 0 <= second < 60 && 0 <= milli < 1000 ==>
      0 <= t < MsPerDay
    ensures hour == 23 && minute == 59 && second == 59 && milli == 999 ==> t == LastMsOfDay
  {
    hour * MsPerHour + minute * MsPerMinute + second * MsPerSecond + milli
  }

  /** TimeClip: a time value beyond the representable range becomes NaN. */
  function TimeClip(t: int): (d: DateTime)
    ensures d.Time? <==> -MaxTimeValue <= t <= MaxTimeValue
    ensures d.Time? ==> d.ms == t
  {
    if -MaxTimeValue <= t <= MaxTimeValue then Time(t) else Invalid
  }

  /** Day(t): the day number a time value falls on. */
  function Day(t: int): int {
    t / MsPerDay
  }

  /** TimeWithinDay(t): milliseconds since the start of that day, always in [0, MsPerDay). */
  function TimeWithinDay(t: int): int {
    t % MsPerDay
  }

  /** The constructor's two-digit-year rule: a year from 0 to 99 means 1900 to 1999. */
  function FullYear(y: int): int {
    if 0 <= y <= 99 then 1900 + y else y
  }

  /**
    `new Date(year, monthIndex, day, hours, minutes, seconds, ms)` where the first three
    arguments went through `Number` (`None` for NaN) and the rest are integer literals.
    The result is Invalid exactly when a date argument is NaN or the instant is out of
    range; otherwise it lies on day MakeDay(...) at the given time of day.
   */
  function Construct(year: Option<real>, month: Option<real>, day: Option<real>,
                     hour: int, minute: int, second: int, milli: int): (r: DateTime)
    ensures (year.None? || month.None? || day.None?) ==> r.Invalid?
    ensures r.Time? && 0 <= MakeTime(hour, minute, second, milli) < MsPerDay ==>
      && Day(r.ms) == MakeDay(FullYear(Trunc(year.value)), Trunc(month.value), Trunc(day.value))
      && TimeWithinDay(r.ms) == MakeTime(hour, minute, second, milli)
    ensures year.Some? && month.Some? && day.Some? ==>
      var n := MakeDay(FullYear(Trunc(year.value)), Trunc(month.value), Trunc(day.value));
      (-MaxTimeValue <= n * MsPerDay + MakeTime(hour, minute, second, milli) <= MaxTimeValue ==> r.Time?)
  {
    if year.None? || month.None? || day.None? then Invalid
    else
      var dayNumber := MakeDay(FullYear(Trunc(year.value)), Trunc(month.value), Trunc(day.value));
      TimeClip(dayNumber * MsPerDay + MakeTime(hour, minute, second, milli))
  }

  /**
    `d.setHours(23, 59, 59, 999)`: the last millisecond of the same day. An Invalid Date
    stays invalid, and so does the last day of the representable range, whose end lies
    just past it.
   */
  function EndOfDay(d: DateTime): (r: DateTime)
    ensures r.Time? ==> d.Time? && Day(r.ms) == Day(d.ms)
    ensures r.Time? ==> TimeWithinDay(r.ms) == LastMsOfDay && d.ms <= r.ms
    ensures d.Time? && -MaxTimeValue <= d.ms < MaxTimeValue ==> r.Time?
  {
    match d
    case Invalid => Invalid
    case Time(t) => TimeClip(Day(t) * MsPerDay + MakeTime(23, 59, 59, 999))
  }

  /** `a > b` on Dates: compares time values, and anything compared with NaN is false. */
  predicate Later(a: DateTime, b: DateTime)
    ensures a.Invalid? || b.Invalid? ==> !Later(a, b)
  {
    a.Time? && b.Time? && a.ms > b.ms
  }

  /** `>` on Dates is a strict order: never both ways, never a Date after itself. */
  lemma LaterIsStrict(a: DateTime, b: DateTime, c: DateTime)
    ensures !(Later(a, b) && Later(b, a))
    ensures !Later(a, a)
    ensures Later(a, b) && Later(b, c) ==> Later(a, c)
  {
  }

  // ---------------------------------------------------------------------------
  // properties of the calendar arithmetic

  /** Setting the end of the day twice is the same as setting it once. */
  lemma EndOfDayIdempotent(d: DateTime)
    ensures EndOfDay(EndOfDay(d)) == EndOfDay(d)
  {
  }

  /** Twelve months carry into exactly one year. */
  lemma MakeDayMonthCarry(year: int, month: int, date: int)
    ensures MakeDay(year, month + 12, date) == MakeDay(year + 1, month, date)
  {
    assert (month + 12) / 12 == month / 12 + 1;
    assert (month + 12) % 12 == month % 12;
  }

  /** The day count advances by the length of each month, leap days included. */
  lemma {:induction false} MonthsHaveTheirLengths(y: int, m: int)
    requires 1 <= m <= 12
    ensures m < 12 ==> CivilDays(y, m + 1, 1) == CivilDays(y, m, 1) + MonthLength(y, m)
    ensures m == 12 ==> CivilDays(y + 1, 1, 1) == CivilDays(y, 12, 1) + 31
  {
    if m == 2 {
      FebruaryLength(y);
    }
  }

  /** The step from February 1 to March 1 is 29 days in a leap year and 28 otherwise. */
  lemma FebruaryLength(y: int)
    ensures CivilDays(y, 3, 1) == CivilDays(y, 2, 1) + MonthLength(y, 2)
  {
    assert CivilDays(y, 3, 1) == YearStart(y);
    assert CivilDays(y, 2, 1) == YearStart(y - 1) + 337;
    YearStep(y);
  }

  /** Day number of March 1 of year `y`, the first day of the March-based year. */
  function YearStart(y: int): int {
    var era := y / 400;
    var yoe := y - era * 400;
    era * 146097 + yoe * 365 + yoe / 4 - yoe / 100 - 719468
  }

  /** A March-based year ending in February of a leap year `y` has 366 days, otherwise 365. */
  lemma YearStep(y: int)
    ensures YearStart(y) == YearStart(y - 1) + 365 + (if LeapYear(y) then 1 else 0)
  {
    var era := y / 400;
    var yoe := y - era * 400;
    if yoe == 0 {
      EraStart(y, era);
    } else {
      YearStepWithinEra(y, era, yoe);
    }
  }

  /** The first year of an era is a leap year and follows the era's last year, its 399th. */
  lemma EraStart(y: int, era: int)
    requires y == era * 400
    ensures YearStart(y) == YearStart(y - 1) + 366 && LeapYear(y)
  {
    DivModUnique(y, 400, era, 0);
    DivModUnique(y - 1, 400, era - 1, 399);
    LeapWithinEra(y, era, 0);
  }

  /** Within one 400-year era, the step depends only on the year of the era. */
  lemma YearStepWithinEra(y: int, era: int, yoe: int)
    requires era == y / 400 && yoe == y - era * 400 && yoe != 0
    ensures YearStart(y) == YearStart(y - 1) + 365 + (if LeapYear(y) then 1 else 0)
  {
    DivModUnique(y - 1, 400, era, yoe - 1);
    LeapWithinEra(y, era, yoe);
    QuarterStep(yoe);
    CenturyStep(yoe);
  }

  /** Leap years repeat every 400 years. */
  lemma LeapWithinEra(y: int, era: int, yoe: int)
    requires y == era * 400 + yoe
    ensures LeapYear(y) <==> LeapYear(yoe)
  {
    DivModUnique(y, 4, era * 100 + yoe / 4, yoe % 4);
    DivModUnique(y, 100, era * 4 + yoe / 100, yoe % 100);
    DivModUnique(y, 400, era + yoe / 400, yoe % 400);
  }

  /** Division with remainder is unique: a quotient and an in-range remainder are THE quotient and remainder. */
  lemma DivModUnique(x: int, m: int, q: int, r: int)
    requires m > 0 && 0 <= r < m && x == q * m + r
    ensures x / m == q && x % m == r
  {
    var k := q - x / m;
    assert x == (x / m) * m + x % m;
    assert k * m == x % m - r;
    if k > 0 {
      MulAtLeast(k, m);
    } else if k < 0 {
      MulAtLeast(-k, m);
    }
  }

  /** A positive multiple of `m` is at least `m`. */
  lemma {:induction false} MulAtLeast(k: int, m: int)
    requires k >= 1 && m > 0
    ensures k * m >= m
  {
    assert k * m == (k - 1) * m + m;
    if k > 1 {
      MulAtLeast(k - 1, m);
    }
  }

  /** One more year of the era adds one fourth-year leap day exactly at multiples of 4. */
  lemma QuarterStep(yoe: int)
    requires 1 <= yoe < 400
    ensures yoe / 4 - (yoe - 1) / 4 == (if yoe % 4 == 0 then 1 else 0)
  {
  }

  /** One more year of the era removes a century leap day exactly at multiples of 100. */
  lemma CenturyStep(yoe: int)
    requires 1 <= yoe < 400
    ensures yoe / 100 - (yoe - 1) / 100 == (if yoe % 100 == 0 then 1 else 0)
  {
  }

  /** Day 0 is 1 January 1970. */
  lemma EpochDay()
    ensures MakeDay(1970, 0, 1) == 0
  {
    assert 1969 / 400 == 4;
    assert (153 * 10 + 2) / 5 == 306;
  }

  /** 25 February 2026 is day 20509. */
  lemma DayOf25February2026()
    ensures MakeDay(2026, 1, 25) == 20509
  {
    assert 1 / 12 == 0 && 1 % 12 == 1;
    assert 2025 / 400 == 5;
    assert (153 * 11 + 2) / 5 == 337;
  }

  /** 20 April 2026, the wedding day, is day 20563. */
  lemma DayOf20April2026()
    ensures MakeDay(2026, 3, 20) == 20563
  {
    assert 3 / 12 == 0 && 3 % 12 == 3;
    assert 2026 / 400 == 5;
    assert (153 * 1 + 2) / 5 == 31;
  }
}

=== FILE: fecha.dfy ===
/**
  The deadline parser of the page script (`parseFecha`) and the check that closes the
  RSVP form once the guest's confirmation deadline has passed.
 */
module Fecha {
  import opened Wrappers
  import opened Strings
  import opened Values
  import opened Dates

  /** What `parseFecha` may be given: a value read from JSON, or a Date object. */
  datatype Value = FromJson(j: Json) | DateObject(d: DateTime)

  /** `str.toString().split('/')`. */
  function SlashParts(j: Json): seq<string> {
    Split(Text(j), {'/'})
  }

  /** `parts[1] - 1` once `parts[1]` went through `Number`: NaN stays NaN. */
  function MonthIndex(n: Option<real>): Option<real> {
    if n.None? then None else Some(n.value - 1.0)
  }

  /**
    `new Date(parts[2], parts[1] - 1, parts[0], hour, minute, second, milli)`: day,
    month and year in that order, the month counted from one.
   */
  function FromDayMonthYear(host: Host, parts: seq<string>,
                            hour: int, minute: int, second: int, milli: int): DateTime
    requires |parts| == 3
  {
    Construct(host.toNumber(parts[2]), MonthIndex(host.toNumber(parts[1])),
              host.toNumber(parts[0]), hour, minute, second, milli)
  }

  /**
    `parseFecha(str)` of script.js: `null` for a falsy value, a Date unchanged, a
    `D/M/Y` string at local midnight of that day, anything else through `new Date(str)`
    (an Invalid Date is returned as it is).
   */
  function ParseFecha(host: Host, v: Value): (r: Option<DateTime>)
    ensures r.None? <==> v.FromJson? && !Truthy(v.j)
    ensures v.DateObject? ==> r == Some(v.d)
    ensures r.Some? && r.value.Time? && v.FromJson? && |SlashParts(v.j)| == 3 ==>
      TimeWithinDay(r.value.ms) == 0
  {
    match v
    case DateObject(d) => Some(d)
    case FromJson(j) =>
      if !Truthy(j) then None
      else
        var parts := SlashParts(j);
        if |parts| == 3 then Some(FromDayMonthYear(host, parts, 0, 0, 0, 0))
        else Some(host.parseDate(j))
  }

  /**
    The deadline gate of `showMainContent`: RSVP is closed when the session's
    `fechaLimite` is truthy, parses, and the current instant is strictly later.
   */
  predicate RsvpClosed(host: Host, fechaLimite: Json, now: DateTime)
    ensures !Truthy(fechaLimite) ==> !RsvpClosed(host, fechaLimite, now)
    ensures now.Invalid? ==> !RsvpClosed(host, fechaLimite, now)
    ensures RsvpClosed(host, fechaLimite, now) ==>
      ParseFecha(host, FromJson(fechaLimite)).Some? && ParseFecha(host, FromJson(fechaLimite)).value.Time?
  {
    && Truthy(fechaLimite)
    && var deadline := ParseFecha(host, FromJson(fechaLimite));
    && deadline.Some?
    && Later(now, deadline.value)
  }

  // ---------------------------------------------------------------------------
  // the three shapes of input

  /** A string with exactly two slashes is read as day, month, year at midnight. */
  lemma ParseDayMonthYear(host: Host, dd: string, mm: string, yy: string)
    requires Avoids(dd, {'/'}) && Avoids(mm, {'/'}) && Avoids(yy, {'/'})
    ensures var s := dd + "/" + mm + "/" + yy;
      ParseFecha(host, FromJson(Str(s))) ==
        Some(Construct(host.toNumber(yy), MonthIndex(host.toNumber(mm)), host.toNumber(dd), 0, 0, 0, 0))
  {
    SlashPartsOfDate(dd, mm, yy);
  }

  /** The pieces of `dd/mm/yy` are `dd`, `mm` and `yy`. */
  lemma SlashPartsOfDate(dd: string, mm: string, yy: string)
    requires Avoids(dd, {'/'}) && Avoids(mm, {'/'}) && Avoids(yy, {'/'})
    ensures SlashParts(Str(dd + "/" + mm + "/" + yy)) == [dd, mm, yy]
  {
    var seps := {'/'};
    SplitNone(dd, seps);
    SplitNone(mm, seps);
    SplitNone(yy, seps);
    SplitAround(mm, '/', yy, seps);
    assert dd + "/" + mm + "/" + yy == dd + ['/'] + (mm + ['/'] + yy);
    SplitAround(dd, '/', mm + ['/'] + yy, seps);
  }

  /** A non-empty string with any other number of slashes goes to `new Date(str)`. */
  lemma ParseOtherString(host: Host, s: string)
    requires s != [] && CountIn(s, {'/'}) != 2
    ensures ParseFecha(host, FromJson(Str(s))) == Some(host.parseDate(Str(s)))
  {
    SplitCount(s, {'/'});
  }

  /** A truthy number, boolean or object always goes to `new Date(value)`. */
  lemma ParseNonString(host: Host, j: Json)
    requires Truthy(j) && !j.Str? && !j.Arr?
    ensures ParseFecha(host, FromJson(j)) == Some(host.parseDate(j))
  {
    ScalarTextHasNoSlash(j);
    SplitNone(Text(j), {'/'});
  }

  /** A deadline of 20 April 2026, the wedding day, written "20/04/2026", is the midnight starting that day. */
  lemma ParseSample(host: Host)
    requires host.toNumber("20") == Some(20.0)
    requires host.toNumber("04") == Some(4.0)
    requires host.toNumber("2026") == Some(2026.0)
    ensures ParseFecha(host, FromJson(Str("20/04/2026"))) == Some(Time(20563 * MsPerDay))
  {
    assert "20/04/2026" == "20" + "/" + "04" + "/" + "2026";
    ParseDayMonthYear(host, "20", "04", "2026");
    assert MonthIndex(host.toNumber("04")) == Some(3.0);
    MidnightOf20April2026();
  }

  /** `new Date(2026, 3, 20)`. */
  lemma MidnightOf20April2026()
    ensures Construct(Some(2026.0), Some(3.0), Some(20.0), 0, 0, 0, 0) == Time(20563 * MsPerDay)
  {
    DayOf20April2026();
    assert Trunc(3.0) == 3 && Trunc(20.0) == 20 && Trunc(2026.0) == 2026;
  }

  // ---------------------------------------------------------------------------
  // the gate

  /** An instant equal to the deadline does not close the form. */
  lemma GateOpenAtDeadline(host: Host, fechaLimite: Json, now: DateTime)
    requires ParseFecha(host, FromJson(fechaLimite)) == Some(now)
    ensures !RsvpClosed(host, fechaLimite, now)
  {
  }

  /** An Invalid Date never closes the form: every comparison with NaN is false. */
  lemma GateOpenOnInvalid(host: Host, fechaLimite: Json, now: DateTime)
    requires ParseFecha(host, FromJson(fechaLimite)) == Some(Invalid)
    ensures !RsvpClosed(host, fechaLimite, now)
  {
  }

  /** Once closed, the gate stays closed at every later instant. */
  lemma GateStaysClosed(host: Host, fechaLimite: Json, now: DateTime, later: DateTime)
    requires RsvpClosed(host, fechaLimite, now)
    requires later.Time? && later.ms >= now.ms
    ensures RsvpClosed(host, fechaLimite, later)
  {
  }

  /**
    For a `D/M/Y` deadline whose parts read as whole numbers, the form closes from the
    first millisecond after midnight starting the deadline day: the whole of that day
    is already past the deadline.
   */
  lemma DayMonthYearGate(host: Host, dd: string, mm: string, yy: string,
                         d: int, m: int, y: int, now: DateTime)
    requires Avoids(dd, {'/'}) && Avoids(mm, {'/'}) && Avoids(yy, {'/'})
    requires host.toNumber(dd) == Some(d as real)
    requires host.toNumber(mm) == Some(m as real)
    requires host.toNumber(yy) == Some(y as real)
    requires ParseFecha(host, FromJson(Str(dd + "/" + mm + "/" + yy))).value.Time?
    ensures RsvpClosed(host, Str(dd + "/" + mm + "/" + yy), now) <==>
      now.Time? && now.ms > MakeDay(FullYear(y), m - 1, d) * MsPerDay
  {
    ParseDayMonthYear(host, dd, mm, yy);
    assert Trunc(d as real) == d && Trunc(y as real) == y;
    assert Trunc(m as real - 1.0) == m - 1;
  }
}

=== FILE: fecha_end_of_day.dfy ===
/**
  The second `parseFecha`, from test_date.js, which treats a deadline as inclusive:
  every date it returns is moved to 23:59:59.999 of its day, and a string the engine
  cannot parse gives `null` instead of an Invalid Date. The last lemmas set it beside
  the script.js parser.
 */
module FechaEndOfDay {
  import opened Wrappers
  import opened Strings
  import opened Values
  import opened Dates
  import opened Fecha

  /**
    `parseFecha(str)` of test_date.js: `null` for a falsy value; a copy of a Date set
    to the end of its day; a `D/M/Y` string at the end of that day (with no NaN check,
    so unreadable parts give an Invalid Date); anything else through `new Date(str)`,
    moved to the end of its day when valid and `null` when not.
   */
  function ParseFechaEndOfDay(host: Host, v: Value): (r: Option<DateTime>)
    ensures v.FromJson? && !Truthy(v.j) ==> r.None?
    ensures v.DateObject? ==> r == Some(EndOfDay(v.d))
    ensures r.Some? && r.value.Time? ==> TimeWithinDay(r.value.ms) == LastMsOfDay
  {
    match v
    case DateObject(d) => Some(EndOfDay(d))
    case FromJson(j) =>
      if !Truthy(j) then None
      else
        var parts := SlashParts(j);
        if |parts| == 3 then Some(FromDayMonthYear(host, parts, 23, 59, 59, 999))
        else
          var d := host.parseDate(j);
          if d.Time? then Some(EndOfDay(d)) else None
  }

  /** `null` comes back for a falsy value and for an unparseable non-`D/M/Y` value, and only then. */
  lemma NullExactly(host: Host, j: Json)
    ensures ParseFechaEndOfDay(host, FromJson(j)).None? <==>
      !Truthy(j) || (|SlashParts(j)| != 3 && host.parseDate(j).Invalid?)
  {
  }

  /** A string with exactly two slashes is read as day, month, year at 23:59:59.999. */
  lemma DayMonthYearAtEndOfDay(host: Host, dd: string, mm: string, yy: string)
    requires Avoids(dd, {'/'}) && Avoids(mm, {'/'}) && Avoids(yy, {'/'})
    ensures ParseFechaEndOfDay(host, FromJson(Str(dd + "/" + mm + "/" + yy))) ==
      Some(Construct(host.toNumber(yy), MonthIndex(host.toNumber(mm)), host.toNumber(dd), 23, 59, 59, 999))
  {
    SlashPartsOfDate(dd, mm, yy);
  }

  /** Unreadable `D/M/Y` parts give an Invalid Date, not `null`. */
  lemma UnreadablePartsGiveInvalid(host: Host, dd: string, mm: string, yy: string)
    requires Avoids(dd, {'/'}) && Avoids(mm, {'/'}) && Avoids(yy, {'/'})
    requires host.toNumber(dd).None? || host.toNumber(mm).None? || host.toNumber(yy).None?
    ensures ParseFechaEndOfDay(host, FromJson(Str(dd + "/" + mm + "/" + yy))) == Some(Invalid)
  {
    SlashPartsOfDate(dd, mm, yy);
  }

  /** A valid generic parse is kept on its own day, moved to its last millisecond. */
  lemma GenericStaysOnItsDay(host: Host, j: Json)
    requires Truthy(j) && |SlashParts(j)| != 3
    requires host.parseDate(j).Time?
    requires -MaxTimeValue <= host.parseDate(j).ms < MaxTimeValue
    ensures var r := ParseFechaEndOfDay(host, FromJson(j));
      && r.Some? && r.value.Time?
      && Day(r.value.ms) == Day(host.parseDate(j).ms)
      && r.value.ms >= host.parseDate(j).ms
  {
  }

  /** Feeding a result back in gives the same result: it is a Date already at the end of its day. */
  lemma ParseIdempotent(host: Host, v: Value)
    requires ParseFechaEndOfDay(host, v).Some?
    ensures var r := ParseFechaEndOfDay(host, v).value;
      ParseFechaEndOfDay(host, DateObject(r)) == Some(r)
  {
    var r := ParseFechaEndOfDay(host, v).value;
    if r.Time? {
      assert r.ms == Day(r.ms) * MsPerDay + LastMsOfDay;
    }
  }

  /** The sample of test_date.js: "25/02/2026" is 25 February 2026 at 23:59:59.999. */
  lemma ParseSample(host: Host)
    requires host.toNumber("25") == Some(25.0)
    requires host.toNumber("02") == Some(2.0)
    requires host.toNumber("2026") == Some(2026.0)
    ensures ParseFechaEndOfDay(host, FromJson(Str("25/02/2026")))
      == Some(Time(20509 * MsPerDay + LastMsOfDay))
  {
    assert "25/02/2026" == "25" + "/" + "02" + "/" + "2026";
    DayMonthYearAtEndOfDay(host, "25", "02", "2026");
    assert MonthIndex(host.toNumber("02")) == Some(1.0);
    LastMomentOf25February2026();
  }

  /** `new Date(2026, 1, 25, 23, 59, 59, 999)`. */
  lemma LastMomentOf25February2026()
    ensures Construct(Some(2026.0), Some(1.0), Some(25.0), 23, 59, 59, 999)
      == Time(20509 * MsPerDay + LastMsOfDay)
  {
    DayOf25February2026();
    assert Trunc(1.0) == 1 && Trunc(25.0) == 25 && Trunc(2026.0) == 2026;
    assert MakeTime(23, 59, 59, 999) == LastMsOfDay;
  }

  // ---------------------------------------------------------------------------
  // the two parsers side by side

  /**
    On a `D/M/Y` value both parsers pick the same day; this one lands 23:59:59.999
    later than the midnight script.js returns.
   */
  lemma SameDayLater(host: Host, j: Json)
    requires Truthy(j) && |SlashParts(j)| == 3
    requires ParseFechaEndOfDay(host, FromJson(j)).value.Time?
    ensures var inclusive := ParseFechaEndOfDay(host, FromJson(j)).value;
      var midnight := ParseFecha(host, FromJson(j)).value;
      && midnight.Time?
      && Day(midnight.ms) == Day(inclusive.ms)
      && inclusive.ms == midnight.ms + LastMsOfDay
  {
    var parts := SlashParts(j);
    assert ParseFechaEndOfDay(host, FromJson(j)) == Some(FromDayMonthYear(host, parts, 23, 59, 59, 999));
    assert ParseFecha(host, FromJson(j)) == Some(FromDayMonthYear(host, parts, 0, 0, 0, 0));
    MidnightBeforeEndOfDay(host.toNumber(parts[2]), MonthIndex(host.toNumber(parts[1])),
                           host.toNumber(parts[0]));
  }

  /** A constructed 23:59:59.999 that is valid has a valid midnight 23:59:59.999 earlier on the same day. */
  lemma MidnightBeforeEndOfDay(year: Option<real>, month: Option<real>, day: Option<real>)
    requires Construct(year, month, day, 23, 59, 59, 999).Time?
    ensures var late := Construct(year, month, day, 23, 59, 59, 999);
      var early := Construct(year, month, day, 0, 0, 0, 0);
      && early.Time?
      && early.ms + LastMsOfDay == late.ms
      && Day(early.ms) == Day(late.ms)
  {
    var n := MakeDay(FullYear(Trunc(year.value)), Trunc(month.value), Trunc(day.value));
    assert Construct(year, month, day, 23, 59, 59, 999) == TimeClip(n * MsPerDay + LastMsOfDay);
    DayStartInRange(n);
    assert Construct(year, month, day, 0, 0, 0, 0) == TimeClip(n * MsPerDay);
  }

  /** A day whose last millisecond is representable has its first one representable too. */
  lemma DayStartInRange(n: int)
    requires -MaxTimeValue <= n * MsPerDay + LastMsOfDay
    ensures -MaxTimeValue <= n * MsPerDay
  {
    var x := n * MsPerDay + LastMsOfDay + MaxTimeValue;
    DivModUnique(x, MsPerDay, n + MaxTimeValue / MsPerDay, LastMsOfDay);
  }

  /**
    An instant during the deadline day itself, after midnight, already closes the RSVP
    form under script.js while this parser's deadline has not yet passed.
   */
  lemma DeadlineDayDiffers(host: Host, j: Json, now: DateTime)
    requires Truthy(j) && |SlashParts(j)| == 3
    requires ParseFechaEndOfDay(host, FromJson(j)).value.Time?
    requires now.Time?
    requires Day(now.ms) == Day(ParseFechaEndOfDay(host, FromJson(j)).value.ms)
    requires TimeWithinDay(now.ms) > 0
    ensures RsvpClosed(host, j, now)
    ensures !Later(now, ParseFechaEndOfDay(host, FromJson(j)).value)
  {
    SameDayLater(host, j);
  }
}

=== FILE: guests.dfy ===
/**
  The passes panel of `showMainContent`: the number of passes a guest holds and the
  names of the people the invitation covers, which the guest registry stores as one
  string separated by commas or line breaks.
 */
module Guests {
  import opened Strings
  import opened Values

  /** The characters the `Invitados` string is split on: `/[,\n]/`. */
  const GuestSeparators: set<char> := {',', '\n'}

  /** A name as the list shows it: non-empty, separator-free, no white space at either end. */
  predicate CleanName(n: string) {
    n != [] && Avoids(n, GuestSeparators) && Trimmed(n)
  }

  /** `.map(name => name.trim()).filter(name => name !== "")`, keeping the order. */
  function Tidy(pieces: seq<string>): (names: seq<string>)
    ensures |names| <= |pieces|
    ensures forall n :: n in names ==> n != [] && Trimmed(n)
  {
    if pieces == [] then []
    else
      var t := Trim(pieces[0]);
      if t == [] then Tidy(pieces[1..]) else [t] + Tidy(pieces[1..])
  }

  /** Tidied separator-free pieces are clean names. */
  lemma {:induction false} TidyClean(pieces: seq<string>)
    requires forall p :: p in pieces ==> Avoids(p, GuestSeparators)
    ensures forall n :: n in Tidy(pieces) ==> CleanName(n)
  {
    if pieces != [] {
      var rest := pieces[1..];
      assert forall p :: p in rest ==> p in pieces;
      TidyClean(rest);
      assert pieces[0] in pieces;
      TrimAvoids(pieces[0], GuestSeparators);
    }
  }

  /** `Invitados.split(/[,\n]/).map(name => name.trim()).filter(name => name !== "")`. */
  function GuestList(invitados: string): (names: seq<string>)
    ensures forall n :: n in names ==> n != [] && Trimmed(n)
  {
    Tidy(Split(invitados, GuestSeparators))
  }

  /** There are never more names than separators plus one. */
  lemma GuestListCount(invitados: string)
    ensures |GuestList(invitados)| <= CountIn(invitados, GuestSeparators) + 1
  {
    SplitCount(invitados, GuestSeparators);
  }

  /**
    Every listed name is non-empty, holds no comma or line break, and has no white
    space at either end.
   */
  lemma GuestListClean(invitados: string)
    ensures forall n :: n in GuestList(invitados) ==> CleanName(n)
  {
    var parts := Split(invitados, GuestSeparators);
    forall p | p in parts
      ensures Avoids(p, GuestSeparators)
    {
      var i :| 0 <= i < |parts| && parts[i] == p;
    }
    TidyClean(parts);
  }

  /** Tidying distributes over concatenation. */
  lemma {:induction false} TidyAppend(xs: seq<string>, ys: seq<string>)
    ensures Tidy(xs + ys) == Tidy(xs) + Tidy(ys)
  {
    if xs != [] {
      assert (xs + ys)[0] == xs[0];
      assert (xs + ys)[1..] == xs[1..] + ys;
      TidyAppend(xs[1..], ys);
    } else {
      assert xs + ys == ys;
    }
  }

  /**
    The names on either side of a separator stay on their side and in their order:
    the list of `a + [c] + b` is the list of `a` followed by the list of `b`.
   */
  lemma GuestListAround(a: string, c: char, b: string)
    requires c in GuestSeparators
    ensures GuestList(a + [c] + b) == GuestList(a) + GuestList(b)
  {
    SplitAround(a, c, b, GuestSeparators);
    TidyAppend(Split(a, GuestSeparators), Split(b, GuestSeparators));
  }

  /** A separator-free string gives its trimmed self, or nothing when it is blank. */
  lemma GuestListSingle(s: string)
    requires Avoids(s, GuestSeparators)
    ensures GuestList(s) == if Blank(s) then [] else [Trim(s)]
  {
    SplitNone(s, GuestSeparators);
    TidyOne(s);
  }

  lemma TidyOne(s: string)
    ensures Tidy([s]) == if Blank(s) then [] else [Trim(s)]
  {
    assert [s][1..] == [];
    assert [s][0] == s;
  }

  /** The empty string lists no names. */
  lemma GuestListOfEmpty()
    ensures GuestList([]) == []
  {
    assert Split([], GuestSeparators) == [[]];
    assert Tidy([[]]) == [];
  }

  /** White space in front of the list changes nothing, as long as it holds no line break. */
  lemma GuestListBlankPrefix(pad: string, s: string)
    requires Blank(pad) && Avoids(pad, GuestSeparators)
    ensures GuestList(pad + s) == GuestList(s)
  {
    var parts := Split(s, GuestSeparators);
    SplitPrefix(pad, s, GuestSeparators);
    TidyBlankPrefix(pad, parts[0], parts[1..]);
    FirstAndRest(parts);
  }

  /** A non-empty list is its first piece followed by the rest. */
  lemma FirstAndRest(parts: seq<string>)
    requires parts != []
    ensures [parts[0]] + parts[1..] == parts
  {
  }

  /** White space in front of the first piece does not change the tidied list. */
  lemma TidyBlankPrefix(pad: string, head: string, tail: seq<string>)
    requires Blank(pad)
    ensures Tidy([pad + head] + tail) == Tidy([head] + tail)
  {
    TrimBlankPrefix(pad, head);
    TidyCons(pad + head, tail);
    TidyCons(head, tail);
  }

  /** Tidying a list with a given first piece. */
  lemma TidyCons(x: string, xs: seq<string>)
    ensures Tidy([x] + xs) == (if Trim(x) == [] then [] else [Trim(x)]) + Tidy(xs)
  {
    assert ([x] + xs)[0] == x;
    assert ([x] + xs)[1..] == xs;
  }

  /**
    Writing clean names separated by a comma or line break, optionally followed by
    spaces, and reading them back gives the same names in the same order.
   */
  lemma {:induction false} GuestListRoundTrip(names: seq<string>, c: char, pad: string)
    requires |names| >= 1
    requires forall n :: n in names ==> CleanName(n)
    requires c in GuestSeparators && Blank(pad) && Avoids(pad, GuestSeparators)
    ensures GuestList(Join(names, [c] + pad)) == names
  {
    var first := names[0];
    assert CleanName(first);
    if |names| == 1 {
      OneCleanName(first);
    } else {
      var tail := names[1..];
      assert forall n :: n in tail ==> n in names;
      GuestListRoundTrip(tail, c, pad);
      JoinFirst(names, c, pad);
      NameThenRest(first, c, pad, Join(tail, [c] + pad));
      assert [first] + tail == names;
    }
  }

  /** A clean name on its own lists as itself. */
  lemma OneCleanName(name: string)
    requires CleanName(name)
    ensures GuestList(name) == [name]
  {
    GuestListSingle(name);
    assert !IsJsSpace(name[0]);
  }

  /** A clean name, a separator and padding, then the rest: the name comes first. */
  lemma NameThenRest(name: string, c: char, pad: string, rest: string)
    requires CleanName(name)
    requires c in GuestSeparators && Blank(pad) && Avoids(pad, GuestSeparators)
    ensures GuestList(name + [c] + (pad + rest)) == [name] + GuestList(rest)
  {
    OneCleanName(name);
    GuestListAround(name, c, pad + rest);
    GuestListBlankPrefix(pad, rest);
  }

  /** Peeling the first name off a join leaves the separator's white space on the rest. */
  lemma JoinFirst(names: seq<string>, c: char, pad: string)
    requires |names| > 1
    ensures Join(names, [c] + pad) == names[0] + [c] + (pad + Join(names[1..], [c] + pad))
  {
    var rest := Join(names[1..], [c] + pad);
    assert names[0] + ([c] + pad) + rest == names[0] + [c] + (pad + rest);
  }

  /** Two names written as a comma-and-space list, "Maria Lopez, Juan Lopez", list as those two names. */
  lemma GuestListSample()
    ensures GuestList("Maria Lopez, Juan Lopez") == ["Maria Lopez", "Juan Lopez"]
  {
    var names := ["Maria Lopez", "Juan Lopez"];
    SampleJoin();
    SampleNamesClean();
    GuestListRoundTrip(names, ',', " ");
  }

  /** The two names joined by a comma and a space. */
  lemma SampleJoin()
    ensures Join(["Maria Lopez", "Juan Lopez"], [','] + " ") == "Maria Lopez, Juan Lopez"
  {
  }

  /** Both names of that list are clean. */
  lemma SampleNamesClean()
    ensures forall n :: n in ["Maria Lopez", "Juan Lopez"] ==> CleanName(n)
  {
    assert CleanName("Maria Lopez");
    assert CleanName("Juan Lopez");
  }

  // ---------------------------------------------------------------------------
  // the panel

  /** The three pieces of the passes panel: whether it shows, its `(n)` caption, and the names. */
  datatype Panel = Panel(visible: bool, caption: string, names: seq<string>)

  /** The panel as the page first loads: hidden and empty. */
  const InitialPanel: Panel := Panel(false, "", [])

  /** The panel after an update, and whether the update threw before finishing. */
  datatype PanelUpdate = PanelUpdate(panel: Panel, broke: bool)

  /** The caption `(${Pases})`. */
  function Caption(pases: Json): string {
    "(" + Text(pases) + ")"
  }

  /**
    The passes block of `showMainContent`. The panel shows, labelled `(Pases)`, exactly
    when `Pases` is neither `undefined` nor `null`; a string `Invitados` is listed,
    a falsy one clears the list, and any other truthy value has no `split` method,
    so the update throws after showing the caption. A hidden panel keeps its old contents.
   */
  function ShowPasses(prev: Panel, pases: Json, invitados: Json): (u: PanelUpdate)
    ensures u.panel.visible <==> !pases.Undefined? && !pases.Null?
    ensures u.panel.visible ==> u.panel.caption == Caption(pases)
    ensures !u.panel.visible ==> u.panel == prev.(visible := false) && !u.broke
    ensures u.broke <==> u.panel.visible && Truthy(invitados) && !invitados.Str?
    ensures u.panel.visible && invitados.Str? ==> u.panel.names == GuestList(invitados.s)
    ensures u.panel.visible && !Truthy(invitados) ==> u.panel.names == []
    ensures u.broke ==> u.panel.names == prev.names
  {
    if !pases.Undefined? && !pases.Null? then ShowCaptioned(prev.names, Caption(pases), invitados)
    else PanelUpdate(prev.(visible := false), false)
  }

  /**
    The shown panel with its caption set: the names from a string `Invitados`, none for
    a falsy one, and the old ones, with the update broken, for any other value.
   */
  function ShowCaptioned(names: seq<string>, caption: string, invitados: Json): (u: PanelUpdate)
    ensures u.panel.visible && u.panel.caption == caption
    ensures u.broke <==> Truthy(invitados) && !invitados.Str?
    ensures invitados.Str? ==> u.panel.names == GuestList(invitados.s)
    ensures !Truthy(invitados) ==> u.panel.names == []
    ensures u.broke ==> u.panel.names == names
  {
    var broke := Truthy(invitados) && !invitados.Str?;
    var listed :=
      if !Truthy(invitados) then []
      else if invitados.Str? then GuestList(invitados.s)
      else names;
    assert invitados.Str? ==> listed == GuestList(invitados.s) by {
      if invitados == Str([]) { GuestListOfEmpty(); }
    }
    PanelUpdate(Panel(true, caption, listed), broke)
  }

  /** Two passes and the two names of that list: the caption is "(2)" and both names are shown. */
  lemma ShowPassesSample(prev: Panel, invitados: string)
    requires invitados == "Maria Lopez, Juan Lopez"
    ensures var u := ShowPasses(prev, Num(2), Str(invitados));
      && u.panel.visible && !u.broke
      && u.panel.caption == "(2)"
      && u.panel.names == ["Maria Lopez", "Juan Lopez"]
  {
    CaptionOfTwo();
    GuestListSample();
  }

  /** Two passes are captioned "(2)". */
  lemma CaptionOfTwo()
    ensures Caption(Num(2)) == "(2)"
  {
    assert Text(Num(2)) == "2";
  }
}

=== FILE: session.dfy ===
/**
  Signing in (`validateUser`), showing the invitation (`showMainContent`) and the
  session cache kept in `localStorage` under `wedding_user`: what each lookup reply
  does to the page, when the cache is written, and how a reload restores and
  refreshes it. The network, the 10-second abort timer and storage are inputs.
 */
module Session {
  import opened Wrappers
  import opened Strings
  import opened Values
  import opened Dates
  import opened Fecha
  import opened Guests

  // ---------------------------------------------------------------------------
  // inputs

  /** The body of a response, as `JSON.parse` sees it. */
  datatype Body = NotJson | Parsed(value: Json)

  /**
    How a lookup ended: aborted by the timer, rejected by `fetch` with an error message
    (a browser reports an unreachable server as "Failed to fetch"), or answered.
   */
  datatype Reply = Aborted | FetchFailed(message: string) | Response(status: int, body: Body)

  /**
    The two TypeErrors the engine raises on the login path: reading `success` of a
    `null` body, and calling `split` on an `Invitados` that is not a string. Their
    wording is engine-specific, so only the kind is kept.
   */
  datatype EngineError = ReadOfNull | SplitNotAFunction

  /** What the `login-error` line says. */
  datatype Notice = Clear | Says(text: string) | Thrown(error: EngineError)

  // ---------------------------------------------------------------------------
  // the page

  /**
    The observable state: the cached session, whether the access gate (rather than
    the invitation) is on screen, whether the RSVP form has been replaced by the
    closed notice, the passes panel, the login error line, and whether the name field
    and button accept input.
   */
  datatype Page = Page(cache: Option<Record>, gateShown: bool, rsvpClosed: bool,
                       panel: Panel, notice: Notice, controlsEnabled: bool)

  /** The page as it loads, before any cached session is looked at. */
  const FreshPage: Page := Page(None, true, false, InitialPanel, Clear, true)

  /** A page after `showMainContent`, and whether it threw before finishing. */
  datatype Shown = Shown(page: Page, broke: bool)

  const TimeoutMessage: string := "La conexión tardó demasiado. Inténtalo de nuevo."
  const OfflineMessage: string := "No se pudo conectar con el servidor. Revisa tu conexión de internet."
  const BadBodyMessage: string := "Error: La respuesta del servidor no es válida."
  const NotFoundMessage: string :=
    "Usuario no encontrado. Asegúrate de escribir tu nombre y apellido juntos."

  /** The text of the error thrown for a status outside 200-299. */
  function StatusMessage(status: int): string {
    "Error: Servidor respondió con estado: " + IntText(status)
  }

  /** `response.ok`. */
  predicate Ok(status: int) {
    200 <= status <= 299
  }

  /** A parsed body that grants access: an object whose `success` is truthy. */
  predicate Grants(v: Json) {
    Props(v).Some? && Truthy(Get(Props(v).value, "success"))
  }

  /** What the cache may hold: nothing, or a record the server accepted. */
  predicate CacheValid(cache: Option<Record>) {
    cache.None? || Truthy(Get(cache.value, "success"))
  }

  /**
    `showMainContent(userData)`: hide the gate, close the RSVP form if the deadline has
    passed (a form once closed stays closed), then update the passes panel. Nothing
    else of the page changes.
   */
  function Render(page: Page, rec: Record, now: DateTime, host: Host): (s: Shown)
    ensures !s.page.gateShown
    ensures s.page.rsvpClosed <==> page.rsvpClosed || RsvpClosed(host, Get(rec, "fechaLimite"), now)
    ensures s.page.cache == page.cache && s.page.notice == page.notice
    ensures s.page.controlsEnabled == page.controlsEnabled
    ensures s.page.panel == ShowPasses(page.panel, Get(rec, "Pases"), Get(rec, "Invitados")).panel
    ensures s.broke <==> ShowPasses(page.panel, Get(rec, "Pases"), Get(rec, "Invitados")).broke
  {
    var closed := page.rsvpClosed || RsvpClosed(host, Get(rec, "fechaLimite"), now);
    var u := ShowPasses(page.panel, Get(rec, "Pases"), Get(rec, "Invitados"));
    Shown(page.(gateShown := false, rsvpClosed := closed, panel := u.panel), u.broke)
  }

  // ---------------------------------------------------------------------------
  // signing in

  /** How a lookup is classified by the `try` block of `validateUser` and its `catch`. */
  datatype Outcome = Rejected(message: string) | Crashed(error: EngineError) | Admitted(rec: Record)

  /**
    The reply table of `validateUser`. Every way of failing leaves a message; a reply is
    admitted exactly when it is a 2xx response whose body parses to an object with a
    truthy `success`, and the record admitted is that object.
   */
  function Classify(reply: Reply): (o: Outcome)
    ensures o.Admitted? <==> reply.Response? && Ok(reply.status)
                             && reply.body.Parsed? && Grants(reply.body.value)
    ensures o.Admitted? ==> Some(o.rec) == Props(reply.body.value)
    ensures o.Admitted? ==> reply.body.value.Obj? && o.rec == reply.body.value.fields
    ensures reply.Aborted? ==> o == Rejected(TimeoutMessage)
    ensures reply.FetchFailed? ==>
      o == Rejected(if reply.message == "Failed to fetch" then OfflineMessage
                    else "Error: " + reply.message)
    ensures reply.Response? && !Ok(reply.status) ==> o == Rejected(StatusMessage(reply.status))
    ensures reply.Response? && Ok(reply.status) && reply.body.NotJson? ==> o == Rejected(BadBodyMessage)
    ensures o.Crashed? <==> reply.Response? && Ok(reply.status) && reply.body.Parsed?
                            && Props(reply.body.value).None?
    ensures reply.Response? && Ok(reply.status) && reply.body.Parsed?
            && Props(reply.body.value).Some? && !Grants(reply.body.value) ==>
      var m := Get(Props(reply.body.value).value, "message");
      o == Rejected(if Truthy(m) then Text(m) else NotFoundMessage)
  {
    match reply
    case Aborted => Rejected(TimeoutMessage)
    case FetchFailed(message) =>
      if message == "Failed to fetch" then Rejected(OfflineMessage) else Rejected("Error: " + message)
    case Response(status, body) =>
      if !Ok(status) then Rejected(StatusMessage(status))
      else match body
        case NotJson => Rejected(BadBodyMessage)
        case Parsed(v) =>
          match Props(v)
          case None => Crashed(ReadOfNull)
          case Some(rec) =>
            if Truthy(Get(rec, "success")) then Admitted(rec)
            else
              var m := Get(rec, "message");
              Rejected(if Truthy(m) then Text(m) else NotFoundMessage)
  }

  /**
    The non-blank path of `validateUser` once the lookup has replied: the error line is
    cleared; an admitted record is written to the cache whole and shown (a panel that
    throws shows its error); anything else leaves the cache as it was and shows its
    message. The `finally` block enables the controls on every path.
   */
  function SignIn(page: Page, reply: Reply, now: DateTime, host: Host): (r: Page)
    ensures r.controlsEnabled
    ensures r.cache == (if Classify(reply).Admitted? then Some(Classify(reply).rec) else page.cache)
    ensures Classify(reply).Admitted? ==> !r.gateShown
    ensures !Classify(reply).Admitted? ==> r.gateShown == page.gateShown && r.panel == page.panel
    ensures Classify(reply).Rejected? ==> r.notice == Says(Classify(reply).message)
    ensures Classify(reply).Crashed? ==> r.notice == Thrown(Classify(reply).error)
    ensures !Classify(reply).Admitted? ==> r == page.(notice := r.notice, controlsEnabled := true)
    ensures Classify(reply).Admitted? ==>
      var rec := Classify(reply).rec;
      && r.rsvpClosed == (page.rsvpClosed || RsvpClosed(host, Get(rec, "fechaLimite"), now))
      && r.panel == ShowPasses(page.panel, Get(rec, "Pases"), Get(rec, "Invitados")).panel
    ensures page.rsvpClosed ==> r.rsvpClosed
  {
    var p := page.(notice := Clear);
    var after := match Classify(reply)
      case Rejected(message) => p.(notice := Says(message))
      case Crashed(error) => p.(notice := Thrown(error))
      case Admitted(rec) =>
        var s := Render(p.(cache := Some(rec)), rec, now, host);
        if s.broke then s.page.(notice := Thrown(SplitNotAFunction)) else s.page;
    after.(controlsEnabled := true)
  }

  /**
    `validateUser()` with the name field holding `typed`; `server(name)` is the reply
    to the lookup for `name`. A blank name does nothing at all, not even to the
    controls; any other name is trimmed and looked up.
   */
  function ValidateUser(page: Page, typed: string, server: string -> Reply,
                        now: DateTime, host: Host): (r: Page)
    ensures Blank(typed) ==> r == page
    ensures !Blank(typed) ==> r.controlsEnabled
    ensures r.cache != page.cache ==> !Blank(typed) && Classify(server(Trim(typed))).Admitted?
    ensures !Blank(typed) && Classify(server(Trim(typed))).Admitted? ==>
      r.cache == Some(Classify(server(Trim(typed))).rec) && !r.gateShown
    ensures !Blank(typed) && !Classify(server(Trim(typed))).Admitted? ==>
      r == page.(notice := r.notice, controlsEnabled := true)
    ensures !Blank(typed) && Classify(server(Trim(typed))).Admitted? ==>
      var rec := Classify(server(Trim(typed))).rec;
      && r.rsvpClosed == (page.rsvpClosed || RsvpClosed(host, Get(rec, "fechaLimite"), now))
      && r.panel == ShowPasses(page.panel, Get(rec, "Pases"), Get(rec, "Invitados")).panel
    ensures page.rsvpClosed ==> r.rsvpClosed
  {
    var user := Trim(typed);
    if user == [] then page else SignIn(page, server(user), now, host)
  }

  // ---------------------------------------------------------------------------
  // reloading

  /**
    The page after the top-level script ran on load: the page itself; whether a
    background refresh was started; and whether the script ran to its end. A restored
    session whose panel throws stops the script there, so no refresh starts and the
    handlers registered further down (the form submissions among them) are never attached.
   */
  datatype Load = Load(page: Page, refresh: bool, completed: bool)

  /**
    The restore block: with a cached session, show it straight away (no lookup), then
    refresh it in the background when it has no truthy `fechaLimite`.
   */
  function Restore(stored: Option<Record>, now: DateTime, host: Host): (l: Load)
    ensures l.page.cache == stored
    ensures l.page.gateShown <==> stored.None?
    ensures l.refresh ==> l.completed && stored.Some?
    ensures stored.None? ==> l == Load(FreshPage, false, true)
    ensures stored.Some? && l.completed ==>
      (l.refresh <==> !Truthy(Get(stored.value, "fechaLimite")))
    ensures l.page.notice == Clear && l.page.controlsEnabled
    ensures stored.Some? ==>
      var u := ShowPasses(InitialPanel, Get(stored.value, "Pases"), Get(stored.value, "Invitados"));
      && l.page.rsvpClosed == RsvpClosed(host, Get(stored.value, "fechaLimite"), now)
      && l.page.panel == u.panel
      && (l.completed <==> !u.broke)
  {
    match stored
    case None => Load(FreshPage, false, true)
    case Some(rec) =>
      var s := Render(FreshPage.(cache := stored), rec, now, host);
      Load(s.page, !s.broke && !Truthy(Get(rec, "fechaLimite")), !s.broke)
  }

  /**
    The background refresh: look the cached `usuario` up again and, when the body
    parses to an object with a truthy `success`, cache it whole and show it. The
    response status is never consulted. Every failure, including a TypeError from the
    panel, ends in the `catch` that only logs, so it leaves the rest of the page alone.
   */
  function Refresh(page: Page, server: string -> Reply, now: DateTime, host: Host): (r: Page)
    ensures r.notice == page.notice && r.controlsEnabled == page.controlsEnabled
    ensures r.cache != page.cache ==> r.cache.Some? && Truthy(Get(r.cache.value, "success"))
    ensures page.cache.Some? ==>
      var reply := server(Text(Get(page.cache.value, "usuario")));
      r.cache == (if reply.Response? && reply.body.Parsed? && Grants(reply.body.value)
                  then Props(reply.body.value) else page.cache)
    ensures page.cache.Some? ==>
      var reply := server(Text(Get(page.cache.value, "usuario")));
      !(reply.Response? && reply.body.Parsed? && Grants(reply.body.value)) ==> r == page
    ensures page.cache.Some? ==>
      var reply := server(Text(Get(page.cache.value, "usuario")));
      reply.Response? && reply.body.Parsed? && Grants(reply.body.value) ==>
        var rec := Props(reply.body.value).value;
        && !r.gateShown
        && r.rsvpClosed == (page.rsvpClosed || RsvpClosed(host, Get(rec, "fechaLimite"), now))
        && r.panel == ShowPasses(page.panel, Get(rec, "Pases"), Get(rec, "Invitados")).panel
    ensures page.cache.None? ==> r == page
    ensures page.rsvpClosed ==> r.rsvpClosed
  {
    match page.cache
    case None => page
    case Some(saved) =>
      match server(Text(Get(saved, "usuario")))
      case Response(_, Parsed(v)) =>
        if Grants(v) then
          var rec := Props(v).value;
          Render(page.(cache := Some(rec)), rec, now, host).page
        else page
      case _ => page
  }

  // ---------------------------------------------------------------------------
  // properties

  /** White space around the typed name changes nothing: the lookup is for the trimmed name. */
  lemma TypedNameIsTrimmed(page: Page, typed: string, server: string -> Reply,
                           now: DateTime, host: Host)
    ensures ValidateUser(page, typed, server, now, host)
         == ValidateUser(page, Trim(typed), server, now, host)
  {
    var t := Trim(typed);
    assert Trim(t) == t;
  }

  /** Signing in never puts into the cache anything but a record the server accepted. */
  lemma LoginKeepsCacheValid(page: Page, typed: string, server: string -> Reply,
                             now: DateTime, host: Host)
    requires CacheValid(page.cache)
    ensures CacheValid(ValidateUser(page, typed, server, now, host).cache)
  {
  }

  /** Nor does the background refresh. */
  lemma RefreshKeepsCacheValid(page: Page, server: string -> Reply, now: DateTime, host: Host)
    requires CacheValid(page.cache)
    ensures CacheValid(Refresh(page, server, now, host).cache)
  {
  }

  /** A rejected or crashed lookup leaves the cache exactly as it was and says why. */
  lemma FailedLoginKeepsCache(page: Page, typed: string, server: string -> Reply,
                              now: DateTime, host: Host)
    requires !Blank(typed) && !Classify(server(Trim(typed))).Admitted?
    ensures var r := ValidateUser(page, typed, server, now, host);
      && r.cache == page.cache
      && r.gateShown == page.gateShown
      && r.notice != Clear
  {
  }

  /** An admitted lookup clears the error line, unless the panel throws. */
  lemma AdmittedLoginNotice(page: Page, typed: string, server: string -> Reply,
                            now: DateTime, host: Host)
    requires !Blank(typed)
    requires Classify(server(Trim(typed))).Admitted?
    ensures var rec := Classify(server(Trim(typed))).rec;
      var broke := ShowPasses(page.panel, Get(rec, "Pases"), Get(rec, "Invitados")).broke;
      ValidateUser(page, typed, server, now, host).notice
        == (if broke then Thrown(SplitNotAFunction) else Clear)
  {
  }

  /**
    A reply with an error status is turned away by the login but, when its body grants
    access, accepted by the background refresh, which never looks at the status.
   */
  lemma RefreshIgnoresStatus(page: Page, typed: string, server: string -> Reply,
                             now: DateTime, host: Host, status: int, v: Json)
    requires !Blank(typed) && page.cache.Some?
    requires !Ok(status) && Grants(v)
    requires server(Trim(typed)) == Response(status, Parsed(v))
    requires server(Text(Get(page.cache.value, "usuario"))) == Response(status, Parsed(v))
    ensures ValidateUser(page, typed, server, now, host).notice == Says(StatusMessage(status))
    ensures ValidateUser(page, typed, server, now, host).cache == page.cache
    ensures Refresh(page, server, now, host).cache == Props(v)
  {
  }

  /**
    After a successful sign-in whose panel did not throw, a reload shows the same
    invitation from the cache: the gate stays hidden, the panel shows the same contents,
    and the RSVP form is closed whenever the record's deadline had already passed.
   */
  lemma ReloadAfterLogin(page: Page, typed: string, server: string -> Reply,
                         now: DateTime, later: DateTime, host: Host)
    requires !Blank(typed) && Classify(server(Trim(typed))).Admitted?
    requires ValidateUser(page, typed, server, now, host).notice == Clear
    requires later.Time? && now.Time? && later.ms >= now.ms
    ensures var r := ValidateUser(page, typed, server, now, host);
      var l := Restore(r.cache, later, host);
      && l.completed
      && !l.page.gateShown
      && l.page.panel.visible == r.panel.visible
      && (r.panel.visible ==> l.page.panel == r.panel)
      && (RsvpClosed(host, Get(r.cache.value, "fechaLimite"), now) ==> l.page.rsvpClosed)
  {
    var rec := Classify(server(Trim(typed))).rec;
    var r := ValidateUser(page, typed, server, now, host);
    assert r.cache == Some(rec);
    var pases := Get(rec, "Pases");
    var invitados := Get(rec, "Invitados");
    assert !ShowPasses(page.panel, pases, invitados).broke;
    if RsvpClosed(host, Get(rec, "fechaLimite"), now) {
      GateStaysClosed(host, Get(rec, "fechaLimite"), now, later);
    }
  }

  /** A session saved by an older version, without `fechaLimite`, is refreshed on every load. */
  lemma OldSessionRefreshes(rec: Record, now: DateTime, host: Host)
    requires "fechaLimite" !in rec
    requires !ShowPasses(InitialPanel, Get(rec, "Pases"), Get(rec, "Invitados")).broke
    ensures Restore(Some(rec), now, host).refresh
  {
  }

  /** A restored session whose `Invitados` is truthy but not a string halts the load script. */
  lemma BrokenPanelHaltsLoad(rec: Record, now: DateTime, host: Host)
    requires !Get(rec, "Pases").Undefined? && !Get(rec, "Pases").Null?
    requires Truthy(Get(rec, "Invitados")) && !Get(rec, "Invitados").Str?
    ensures var l := Restore(Some(rec), now, host);
      !l.completed && !l.refresh && l.page.panel.visible
  {
  }
}

=== FILE: strings.dfy ===
/**
  The string built-ins the page script relies on: `String.prototype.split` with a
  single character or a character class, `String.prototype.trim`, `Array.prototype.join`
  and the decimal rendering of an integer. Strings are sequences of Unicode scalar values.
 */
module Strings {

  /**
    The code points ECMAScript counts as WhiteSpace or LineTerminator, i.e. what `trim`
    removes: tab, line feed, vertical tab, form feed, carriage return, space, no-break
    space, the Unicode space separators (U+1680, U+2000 to U+200A, U+202F, U+205F,
    U+3000), the line and paragraph separators and the byte order mark.
   */
  const JsSpaces: set<char> := {
    '\U{9}', '\U{A}', '\U{B}', '\U{C}', '\U{D}', '\U{20}', '\U{A0}', '\U{1680}',
    '\U{2000}', '\U{2001}', '\U{2002}', '\U{2003}', '\U{2004}', '\U{2005}',
    '\U{2006}', '\U{2007}', '\U{2008}', '\U{2009}', '\U{200A}',
    '\U{2028}', '\U{2029}', '\U{202F}', '\U{205F}', '\U{3000}', '\U{FEFF}'
  }

  /** Whether `trim` removes `c`. */
  predicate IsJsSpace(c: char) {
    c in JsSpaces
  }

  /** Every character of `s` is white space (vacuously true of the empty string). */
  predicate Blank(s: string) {
    forall i :: 0 <= i < |s| ==> IsJsSpace(s[i])
  }

  /** Neither end of `s` is white space. */
  predicate Trimmed(s: string) {
    s == [] || (!IsJsSpace(s[0]) && !IsJsSpace(s[|s| - 1]))
  }

  /** No character of `s` is one of `seps`. */
  predicate Avoids(s: string, seps: set<char>) {
    forall k :: 0 <= k < |s| ==> s[k] !in seps
  }

  // ---------------------------------------------------------------------------
  // split

  /**
    `s.split(c)` for a one-character separator, and `s.split(/[...]/)` for a
    character class: the maximal separator-free runs, including empty ones.
    The empty string splits into one empty piece.
   */
  function Split(s: string, seps: set<char>): (parts: seq<string>)
    ensures |parts| >= 1
    ensures forall i :: 0 <= i < |parts| ==> Avoids(parts[i], seps)
  {
    if s == [] then [[]]
    else
      var rest := Split(s[1..], seps);
      if s[0] in seps then [[]] + rest
      else [[s[0]] + rest[0]] + rest[1..]
  }

  /** Number of characters of `s` that belong to `seps`. */
  function CountIn(s: string, seps: set<char>): nat {
    if s == [] then 0 else (if s[0] in seps then 1 else 0) + CountIn(s[1..], seps)
  }

  /** `Array.prototype.join(sep)`: the pieces in order with `sep` between neighbours. */
  function Join(parts: seq<string>, sep: string): string {
    if |parts| == 0 then []
    else if |parts| == 1 then parts[0]
    else parts[0] + sep + Join(parts[1..], sep)
  }

  /** There is one more piece than there are separators. */
  lemma {:induction false} SplitCount(s: string, seps: set<char>)
    ensures |Split(s, seps)| == CountIn(s, seps) + 1
  {
    if s != [] {
      SplitCount(s[1..], seps);
    }
  }

  /** A separator-free string is a single piece: itself. */
  lemma {:induction false} SplitNone(s: string, seps: set<char>)
    requires Avoids(s, seps)
    ensures Split(s, seps) == [s]
  {
    if s != [] {
      SplitNone(s[1..], seps);
      assert [s[0]] + s[1..] == s;
    }
  }

  /**
    Splitting distributes over a separator: the pieces of `a + [c] + b` are the
    pieces of `a` followed by the pieces of `b`. With `SplitNone` this fixes
    `Split` completely, and in particular says the pieces keep the input's order.
   */
  lemma {:induction false} SplitAround(a: string, c: char, b: string, seps: set<char>)
    requires c in seps
    ensures Split(a + [c] + b, seps) == Split(a, seps) + Split(b, seps)
  {
    if a == [] {
      assert a + [c] + b == [c] + b;
      assert ([c] + b)[1..] == b;
    } else {
      assert (a + [c] + b)[0] == a[0];
      assert (a + [c] + b)[1..] == a[1..] + [c] + b;
      SplitAround(a[1..], c, b, seps);
    }
  }

  /** Joining the pieces of `s` back with the one separator gives `s` again. */
  lemma {:induction false} JoinSplit(s: string, c: char)
    ensures Join(Split(s, {c}), [c]) == s
  {
    if s != [] {
      var rest := Split(s[1..], {c});
      JoinSplit(s[1..], c);
      if s[0] == c {
        assert Split(s, {c}) == [[]] + rest;
        assert ([[]] + rest)[1..] == rest;
      } else {
        var parts := Split(s, {c});
        assert parts == [[s[0]] + rest[0]] + rest[1..];
        if |rest| == 1 {
          assert [s[0]] + s[1..] == s;
        } else {
          assert parts[1..] == rest[1..];
          assert Join(rest, [c]) == rest[0] + [c] + Join(rest[1..], [c]);
          assert [s[0]] + s[1..] == s;
        }
      }
    }
  }

  /** Splitting a join of separator-free pieces gives the pieces back. */
  lemma {:induction false} SplitJoin(parts: seq<string>, c: char)
    requires |parts| >= 1
    requires forall i :: 0 <= i < |parts| ==> Avoids(parts[i], {c})
    ensures Split(Join(parts, [c]), {c}) == parts
  {
    if |parts| == 1 {
      SplitNone(parts[0], {c});
    } else {
      SplitJoin(parts[1..], c);
      SplitNone(parts[0], {c});
      SplitAround(parts[0], c, Join(parts[1..], [c]), {c});
      assert [parts[0]] + parts[1..] == parts;
    }
  }

  // ---------------------------------------------------------------------------
  // trim

  /** `s.trimStart()`: drops the leading white space. */
  function TrimStart(s: string): (r: string)
    ensures |r| <= |s| && r == s[|s| - |r|..]
    ensures Blank(s[..|s| - |r|])
    ensures r == [] || !IsJsSpace(r[0])
  {
    if s != [] && IsJsSpace(s[0]) then
      var r := TrimStart(s[1..]);
      assert s[..|s| - |r|] == [s[0]] + s[1..][..|s| - 1 - |r|];
      r
    else s
  }

  /** `s.trimEnd()`: drops the trailing white space. */
  function TrimEnd(s: string): (r: string)
    ensures |r| <= |s| && r == s[..|r|]
    ensures Blank(s[|r|..])
    ensures r == [] || !IsJsSpace(r[|r| - 1])
  {
    if s != [] && IsJsSpace(s[|s| - 1]) then TrimEnd(s[..|s| - 1]) else s
  }

  /** How many leading white-space characters `trim` removes from `s`. */
  function Lead(s: string): nat
    ensures Lead(s) <= |s|
  {
    |s| - |TrimStart(s)|
  }

  /**
    `s.trim()`: no white space is left at either end, the result is empty exactly when
    `s` is blank, and an already trimmed string is left alone. `TrimShape` adds that
    the result is the infix of `s` between a blank prefix and a blank suffix.
   */
  function Trim(s: string): (r: string)
    ensures Trimmed(r)
    ensures r == [] <==> Blank(s)
    ensures Trimmed(s) ==> r == s
  {
    var t := TrimStart(s);
    var r := TrimEnd(t);
    assert r == [] || r[0] == t[0];
    TrimBlank(s);
    TrimTrimmed(s);
    r
  }

  /** What `trim` keeps is the infix of `s` between a blank prefix and a blank suffix. */
  lemma TrimShape(s: string)
    ensures Lead(s) + |Trim(s)| <= |s| && Trim(s) == s[Lead(s)..Lead(s) + |Trim(s)|]
    ensures Blank(s[..Lead(s)]) && Blank(s[Lead(s) + |Trim(s)|..])
  {
    TrimIsBothEnds(s);
    TrimInfix(s);
    TrimTail(s);
  }

  /** What `trim` keeps starts right after the leading white space. */
  lemma TrimInfix(s: string)
    ensures Lead(s) + |Trim(s)| <= |s| && Trim(s) == s[Lead(s)..Lead(s) + |Trim(s)|]
  {
    TrimIsBothEnds(s);
    var t := TrimStart(s);
    assert Trim(s) == TrimEnd(t);
    InfixOfSuffix(s, t, Trim(s), Lead(s));
  }

  /** Everything after what `trim` keeps is white space. */
  lemma TrimTail(s: string)
    ensures Lead(s) + |Trim(s)| <= |s| && Blank(s[Lead(s) + |Trim(s)|..])
  {
    TrimIsBothEnds(s);
    var t := TrimStart(s);
    assert Trim(s) == TrimEnd(t);
    BlankTail(s, t, |Trim(s)|);
  }

  /** `trim` is `trimStart` followed by `trimEnd`. */
  lemma TrimIsBothEnds(s: string)
    ensures Trim(s) == TrimEnd(TrimStart(s))
    ensures Blank(s[..Lead(s)])
  {
  }

  /** A prefix `r` of the suffix `t` of `s` starting at `lo` is the infix of `s` at `lo`. */
  lemma InfixOfSuffix(s: string, t: string, r: string, lo: nat)
    requires lo <= |s| && t == s[lo..] && |r| <= |t| && r == t[..|r|]
    ensures lo + |r| <= |s| && r == s[lo..lo + |r|]
  {
  }

  /** What `TrimEnd` removed from the suffix `t` of `s` is a blank suffix of `s`. */
  lemma BlankTail(s: string, t: string, n: nat)
    requires |t| <= |s| && t == s[|s| - |t|..] && n <= |t|
    requires Blank(t[n..])
    ensures Blank(s[|s| - |t| + n..])
  {
    var lo := |s| - |t|;
    forall i | lo + n <= i < |s|
      ensures IsJsSpace(s[i])
    {
      assert s[i] == t[n..][i - lo - n];
    }
  }

  lemma TrimBlank(s: string)
    ensures TrimEnd(TrimStart(s)) == [] <==> Blank(s)
  {
    var t := TrimStart(s);
    assert t[0..] == t;
    assert t == [] || t[0] == s[|s| - |t|];
    assert s[..|s|] == s;
  }

  lemma TrimTrimmed(s: string)
    ensures Trimmed(s) ==> TrimEnd(TrimStart(s)) == s
  {
    if s != [] && Trimmed(s) {
      assert TrimStart(s) == s;
    }
  }

  /** Trimming removes characters but never brings a separator in. */
  lemma TrimAvoids(s: string, seps: set<char>)
    ensures Avoids(s, seps) ==> Avoids(Trim(s), seps)
  {
    var r := Trim(s);
    var lo := Lead(s);
    TrimShape(s);
    if Avoids(s, seps) {
      forall k | 0 <= k < |r|
        ensures r[k] !in seps
      {
        assert r[k] == s[lo + k];
      }
    }
  }

  /** Leading white space in front of a string makes no difference to `trim`. */
  lemma {:induction false} TrimBlankPrefix(pad: string, s: string)
    requires Blank(pad)
    ensures Trim(pad + s) == Trim(s)
  {
    TrimStartBlankPrefix(pad, s);
  }

  lemma {:induction false} TrimStartBlankPrefix(pad: string, s: string)
    requires Blank(pad)
    ensures TrimStart(pad + s) == TrimStart(s)
  {
    if pad != [] {
      assert (pad + s)[0] == pad[0] && IsJsSpace(pad[0]);
      assert (pad + s)[1..] == pad[1..] + s;
      assert Blank(pad[1..]) by {
        forall i | 0 <= i < |pad[1..]|
          ensures IsJsSpace(pad[1..][i])
        {
          assert pad[1..][i] == pad[i + 1];
        }
      }
      TrimStartBlankPrefix(pad[1..], s);
    } else {
      assert pad + s == s;
    }
  }

  /** A separator-free prefix joins the first piece. */
  lemma {:induction false} SplitPrefix(pad: string, s: string, seps: set<char>)
    requires Avoids(pad, seps)
    ensures Split(pad + s, seps) == [pad + Split(s, seps)[0]] + Split(s, seps)[1..]
  {
    if pad != [] {
      assert (pad + s)[0] == pad[0];
      assert (pad + s)[1..] == pad[1..] + s;
      assert pad[0] !in seps;
      assert Avoids(pad[1..], seps) by {
        forall k | 0 <= k < |pad[1..]|
          ensures pad[1..][k] !in seps
        {
          assert pad[1..][k] == pad[k + 1];
        }
      }
      SplitPrefix(pad[1..], s, seps);
      assert [pad[0]] + (pad[1..] + Split(s, seps)[0]) == pad + Split(s, seps)[0];
    } else {
      assert pad + s == s;
      assert pad + Split(s, seps)[0] == Split(s, seps)[0];
      assert [Split(s, seps)[0]] + Split(s, seps)[1..] == Split(s, seps);
    }
  }

  // ---------------------------------------------------------------------------
  // integers as text

  /** The character of a decimal digit. */
  function DigitChar(d: int): char
    requires 0 <= d < 10
  {
    (48 + d) as char
  }

  predicate IsDigit(c: char) {
    48 <= c as int <= 57
  }

  /** Value of a string of decimal digits (the empty string reads as 0). */
  function DigitsValue(s: string): nat
    requires forall k :: 0 <= k < |s| ==> IsDigit(s[k])
  {
    if s == [] then 0
    else
      assert IsDigit(s[|s| - 1]);
      DigitsValue(s[..|s| - 1]) * 10 + (s[|s| - 1] as int - 48)
  }

  /** Decimal digits of a natural number, most significant first, without leading zeros. */
  function NatText(n: nat): (r: string)
    ensures |r| >= 1
    ensures forall k :: 0 <= k < |r| ==> IsDigit(r[k])
    ensures DigitsValue(r) == n
  {
    if n < 10 then [DigitChar(n)]
    else
      var r := NatText(n / 10) + [DigitChar(n % 10)];
      assert r[..|r| - 1] == NatText(n / 10);
      r
  }

  /** `String(n)` for an integer of ordinary size: an optional minus sign, then the digits. */
  function IntText(n: int): (r: string)
    ensures '/' !in r && ',' !in r
  {
    if n < 0 then "-" + NatText(-n) else NatText(n)
  }
}

=== FILE: submit.dfy ===
/**
  The two form handlers and `sendToSheet`: the payload posted to the registry, built
  from the cached session and the form's fields, and the page's answer to the post.
 */
module Submit {
  import opened Wrappers
  import opened Values

  /**
    What the guest filled in. `FormData.get` gives `null` for a field that is missing
    or has no selection, shown as `None`.
   */
  datatype Form =
    | RsvpForm(attending: Option<string>, songs: Option<string>)
    | MessageForm(message: Option<string>)

  /** What the page shows once `sendToSheet` is done. */
  datatype Answer = Confirmed | Regretted | MessageSent | SendFailed

  /**
    A submission: either the handler threw before posting anything (there was no cached
    session to read `usuario` from), or this payload was posted and the page answered so.
   */
  datatype Submission = NoSession | Posted(payload: Record, answer: Answer)

  /** The fallback name used when no session is cached. */
  const Guest: string := "Invitado"

  /** `formData.get(name)` as a value: the string, or `null`. */
  function Field(f: Option<string>): Json {
    if f.Some? then Str(f.value) else Null
  }

  /**
    The `data` object each handler passes on: `usuario` from the session with the
    attendance answer and the songs (an empty string when there are none), or with
    the message.
   */
  function FormFields(user: Json, form: Form): (data: Record)
    ensures "usuario" in data && data["usuario"] == user
    ensures form.RsvpForm? ==> data.Keys == {"usuario", "confirmado", "canciones"}
    ensures form.MessageForm? ==> data.Keys == {"usuario", "mensaje"}
    ensures form.RsvpForm? ==> data["confirmado"] == Field(form.attending)
    ensures form.RsvpForm? && form.songs.Some? ==> data["canciones"] == Str(form.songs.value)
    ensures form.RsvpForm? && form.songs.None? ==> data["canciones"] == Str("")
    ensures form.MessageForm? ==> data["mensaje"] == Field(form.message)
  {
    match form
    case RsvpForm(attending, songs) =>
      var canciones := if songs.Some? && songs.value != [] then Str(songs.value) else Str("");
      map["usuario" := user, "confirmado" := Field(attending), "canciones" := canciones]
    case MessageForm(message) =>
      map["usuario" := user, "mensaje" := Field(message)]
  }

  /**
    `{ usuario: savedUser ? savedUser.usuario : 'Invitado', ...data }`: the fields of
    `data` are laid over the base, so a `usuario` in `data` wins over both the session's
    and the fallback.
   */
  function Payload(cache: Option<Record>, data: Record): (p: Record)
    ensures p.Keys == data.Keys + {"usuario"}
    ensures forall k :: k in data ==> p[k] == data[k]
    ensures "usuario" !in data ==>
      p["usuario"] == (if cache.Some? then Get(cache.value, "usuario") else Str(Guest))
  {
    var base := map["usuario" := if cache.Some? then Get(cache.value, "usuario") else Str(Guest)];
    base + data
  }

  /** `JSON.stringify` leaves out the properties whose value is `undefined`. */
  function Wire(p: Record): (w: Record)
    ensures w.Keys <= p.Keys
    ensures forall k :: k in w ==> w[k] == p[k] && !p[k].Undefined?
    ensures forall k :: k in p && !p[k].Undefined? ==> k in w
  {
    map k | k in p && !p[k].Undefined? :: p[k]
  }

  /** The RSVP branch of `sendToSheet`: the guest is attending exactly when `confirmado === 'Si'`. */
  predicate Attending(data: Record)
    ensures Attending(data) <==> "confirmado" in data && data["confirmado"] == Str("Si")
  {
    Get(data, "confirmado") == Str("Si")
  }

  /**
    Submitting a form. The handler reads `usuario` from the cached session, which throws
    when there is none. Otherwise the payload is posted; `delivered` says whether `fetch`
    resolved (with `no-cors` any response counts) rather than throwing. The RSVP answer
    depends only on what was chosen; the message form answers that it was sent.
   */
  function Submit(cache: Option<Record>, form: Form, delivered: bool): (s: Submission)
    ensures s.NoSession? <==> cache.None?
    ensures s.Posted? ==> s.payload == Payload(cache, FormFields(Get(cache.value, "usuario"), form))
    ensures s.Posted? && !delivered ==> s.answer == SendFailed
    ensures s.Posted? && delivered && form.MessageForm? ==> s.answer == MessageSent
    ensures s.Posted? && delivered && form.RsvpForm? ==>
      (s.answer == Confirmed <==> form.attending == Some("Si"))
    ensures s.Posted? && delivered && form.RsvpForm? ==> s.answer != SendFailed
  {
    match cache
    case None => NoSession
    case Some(saved) =>
      var data := FormFields(Get(saved, "usuario"), form);
      var answer :=
        if !delivered then SendFailed
        else if form.MessageForm? then MessageSent
        else if Attending(data) then Confirmed
        else Regretted;
      Posted(Payload(cache, data), answer)
  }

  // ---------------------------------------------------------------------------
  // properties

  /** The fallback name survives the merge only when `data` brings no `usuario` of its own. */
  lemma FallbackOnlyWithoutUsuario(data: Record)
    requires !("usuario" in data && data["usuario"] == Str(Guest))
    ensures Payload(None, data)["usuario"] == Str(Guest) <==> "usuario" !in data
  {
  }

  /**
    The handlers always supply `usuario`, so a posted payload carries the session's
    `usuario` and never the fallback put there by `sendToSheet`.
   */
  lemma HandlersNeverUseFallback(cache: Option<Record>, form: Form, delivered: bool)
    requires cache.Some?
    ensures var s := Submit(cache, form, delivered);
      s.Posted? && s.payload["usuario"] == Get(cache.value, "usuario")
  {
  }

  /** The posted payload is exactly the handler's `data`: the merge adds and changes nothing. */
  lemma PayloadIsTheFormFields(cache: Option<Record>, form: Form, delivered: bool)
    requires cache.Some?
    ensures Submit(cache, form, delivered).payload == FormFields(Get(cache.value, "usuario"), form)
  {
    var data := FormFields(Get(cache.value, "usuario"), form);
    var p := Payload(cache, data);
    assert p.Keys == data.Keys;
  }

  /**
    A session without `usuario` posts a body without it: the property is `undefined`,
    which `JSON.stringify` drops.
   */
  lemma MissingUsuarioIsNotSent(rec: Record, form: Form, delivered: bool)
    requires "usuario" !in rec
    ensures "usuario" !in Wire(Submit(Some(rec), form, delivered).payload)
  {
  }

  /** Any answer other than the exact string "Si", including none, is taken as a refusal. */
  lemma OnlySiConfirms(cache: Option<Record>, attending: Option<string>, songs: Option<string>)
    requires cache.Some?
    requires attending != Some("Si")
    ensures Submit(cache, RsvpForm(attending, songs), true).answer == Regretted
  {
  }
}

=== FILE: values.dfy ===
/**
  JavaScript values as they arrive from `JSON.parse` (plus `undefined`, which is what
  reading an absent property yields), with the two conversions the page script applies
  to them: truthiness in conditions, and `String(v)` in templates and `toString()` calls.
 */
module Values {
  import opened Wrappers
  import opened Strings

  /**
    A JSON value. `Undefined` is not JSON; it stands for a property that is absent.
    Numbers are integers here (the fields the page reads are counts and dates).
   */
  datatype Json =
    | Undefined
    | Null
    | Bool(b: bool)
    | Num(n: int)
    | Str(s: string)
    | Arr(items: seq<Json>)
    | Obj(fields: map<string, Json>)

  /** A parsed JSON object: its own properties by name. */
  type Record = map<string, Json>

  /** JavaScript truthiness: `undefined`, `null`, `false`, `0` and `""` are falsy. */
  predicate Truthy(v: Json) {
    match v
    case Undefined => false
    case Null => false
    case Bool(b) => b
    case Num(n) => n != 0
    case Str(s) => s != []
    case Arr(_) => true
    case Obj(_) => true
  }

  /** `record.key`: the property's value, or `undefined` when there is none. */
  function Get(m: Record, key: string): (v: Json)
    ensures key !in m ==> v == Undefined
    ensures key in m ==> v == m[key]
  {
    if key in m then m[key] else Undefined
  }

  /**
    `String(v)`, which is also what `v.toString()` and a template `${v}` give. Arrays
    join their elements' strings with commas, rendering `null` and `undefined` elements
    as empty strings; every plain object renders as `[object Object]`.
   */
  function Text(v: Json): string
    decreases v, 1
  {
    match v
    case Undefined => "undefined"
    case Null => "null"
    case Bool(b) => if b then "true" else "false"
    case Num(n) => IntText(n)
    case Str(s) => s
    case Arr(items) => Join(ElementTexts(items), ",")
    case Obj(_) => "[object Object]"
  }

  /** The strings `join` uses for array elements: empty for `null` and `undefined`. */
  function ElementTexts(items: seq<Json>): seq<string>
    decreases items, 0
  {
    if items == [] then []
    else
      var first := if items[0].Undefined? || items[0].Null? then "" else Text(items[0]);
      [first] + ElementTexts(items[1..])
  }

  /** A value whose string form cannot contain a slash: it is neither a string nor an array. */
  lemma ScalarTextHasNoSlash(v: Json)
    requires !v.Str? && !v.Arr?
    ensures Avoids(Text(v), {'/'})
  {
  }

  /**
    What reading a property of the value `JSON.parse` returned gives: `null` (and
    `undefined`) throw a TypeError, shown as `None`; an object exposes its fields; any
    other value has none of the properties the page asks for.
   */
  function Props(v: Json): (r: Option<Record>)
    ensures r.None? <==> v.Null? || v.Undefined?
    ensures v.Obj? ==> r == Some(v.fields)
    ensures !v.Obj? && r.Some? ==> r.value == map[]
  {
    match v
    case Undefined => None
    case Null => None
    case Obj(fields) => Some(fields)
    case _ => Some(map[])
  }
}

=== FILE: wrappers.dfy ===
/** The optional-value datatype shared by every module of the model. */
module Wrappers {

  /** `None` stands for JavaScript's `null` where a function may return no value. */
  datatype Option<+T> = None | Some(value: T)
}
